=== FILE: README.md ===
# Arkanoid game rules in Dafny

A Dafny model of the deterministic game-rule logic of a Java Arkanoid
(ball-and-paddle) game:

- the paddle's five-band bounce rule, its clamped sideways moves and the
  one-time speed rescale of its first frame (`Paddles`);
- the two hit listeners, `BlockRemover` and `ScoreTrackingListener`, as
  functions on a block record and the shared counters, with their
  self-unregistration (`Listeners`, on top of `Blocks` and `Counters`);
- a level's counter set-up, wall and listener wiring, ball creation, paddle
  placement, the two terminal checks of a frame and the animation loop
  (`GameLevels`);
- the game flow: the lives/score reset when a level set is chosen and the
  level-by-level loop with its win/lose decision (`GameFlows`);
- the level helpers: initial ball velocities, lines of blocks, the game
  rectangle and the two documented `LevelInformation` contracts (`Levels`);
- the symbol registry of `BlocksFromSymbolsFactory` (`SymbolsFactory`);
- the line selection and `String.split(":")` of `LevelSetsReader`
  (`LevelSets`).

Coordinates are exact reals. A velocity is either a component pair or the
(angle, speed) pair handed to `Velocity.fromAngleAndSpeed`. Java's shared
`Counter` objects become one `Counters` value that every operation takes
and returns. Each listener names the counter it was built with, and carries
a tag so that distinct Java objects are distinct values. Where Java throws
(a list or array index past the end, unboxing a missing map value), the
model returns a `Failure` or `None` instead of requiring the case away.

Sprite motion is an abstract `Effect` on the blocks counter, the balls
counter and the score. A turn is a finite script of such effects. Turns
and frames come from finite scripts, and a script that runs out before the
game decides ends in an explicit `Stalled` result.

## Model

| member | source | states |
|---|---|---|
| Paddles.NewPaddle | src/game/Paddle.java:32-40 | a new paddle keeps its rectangle, moves 5 per step and is waiting for its first frame |
| Paddles.Region | src/game/Paddle.java:183-208 | the region is always 1..5; it is the band of dose = \|x − left\| / length, and a zero-length paddle (NaN or infinite dose in Java) gives band 5 |
| Paddles.RegionCountsCuts | src/game/Paddle.java:189-207 | the if-chain equals 1 + the number of cut points (0.2, 0.4, 0.5, 0.8) strictly below the dose, so every band includes its right cut |
| Paddles.RegionMonotone | src/game/Paddle.java:189-207 | a larger dose never gives a smaller region |
| Paddles.Hit | src/game/Paddle.java:144-175 | a contact on the lower edge gives (dx, −dy) wherever it lies; otherwise region 5→120, 4→150, 3→180, 2→210, 1→−120 is the angle and the incoming speed is kept |
| Paddles.BandAnglesMirror | src/game/Paddle.java:151-174 | the angles of regions r and 6−r add up to 0 mod 360 (mirror images about 180), and region 3 aims at exactly 180 |
| Paddles.MoveLeft | src/game/Paddle.java:55-65 | the left edge ends ≥ 25; if the step did not reach the margin it moved by exactly `speed`, otherwise it is 25; y, width, height and speed are unchanged |
| Paddles.MoveRight | src/game/Paddle.java:71-82 | the right edge ends ≤ 775; if the step did not reach the margin x moved by exactly `speed`, otherwise the right edge is 775; y, width and height are unchanged |
| Paddles.MovesKeepInside | src/game/Paddle.java:55-82 | with a non-negative speed both moves keep a paddle that lies between the margins between them |
| Paddles.ClampIsStable | src/game/Paddle.java:57-77 | a paddle clamped to a margin stays put when moved again toward it |
| Paddles.TimePassed | src/game/Paddle.java:93-108 | the speed is replaced by its rescaled value only on the first frame, after which the first-frame flag is false; a held left key alone moves left, a held right key alone moves right, both keys move left and then right, all at the (rescaled) speed and clamped at the margins; without keys the rectangle is unchanged |
| Paddles.RescaleOnlyOnce | src/game/Paddle.java:95-99 | a second frame never rescales the speed again |
| Paddles.BothKeysCancel | src/game/Paddle.java:100-107 | with both keys held and room on both sides, the left step and the right step cancel and the paddle stays where it was |
| Listeners.BlockRemoverHit | src/listeners/BlockRemover.java:37-49 | at one hit point the block leaves the game, the remover is unregistered and its counter drops by exactly 1; at any other value nothing changes; only its own counter is touched, and the block keeps the other listeners in their order and number, with every copy of the remover taken out |
| Listeners.RemoverFiresAtMostOnce | src/listeners/BlockRemover.java:39-46 | over any sequence of hits on one block the remover lowers its counter by at most 1, and by exactly 1 if it was registered and a one-hit-point event occurs |
| Listeners.UnregisteredIsInert | src/listeners/BlockRemover.java:43-45 | once a listener is unregistered, later hits change no counter and do not re-register it |
| Listeners.ScoreTrackerHit | src/listeners/ScoreTrackingListener.java:27-37 | the score rises by 5 or 15, and by 15 exactly when the block is at one hit point, in which case the tracker unregisters itself; the block keeps the other listeners in their order and number, nothing else about it changes, and no other counter changes |
| Listeners.ScoreBonusAtMostOnce | src/listeners/ScoreTrackingListener.java:29-36 | over any sequence of hits the score rises by 5 per delivered event, plus the 10-point bonus at most once |
| Listeners.UnregisteredNotDelivered | src/listeners/ScoreTrackingListener.java:33 | no event reaches a tracker once it has unregistered |
| Levels.GameRectangle | src/levels/Level.java:27-30 | the level area starts at the top and left margins, ends at the right margin, and its lower edge reaches the bottom of the window |
| Levels.Velocities | src/levels/Level.java:38-65 | the Java loop (with its reset of the angle to 180 half-way) yields exactly the closed-form list: n entries for n ≥ 0, every one at the given speed |
| Levels.VelocityList | src/levels/Level.java:38-64 | n ≥ 0 balls get n velocities at the given speed, and an odd count starts with angle 180 |
| Levels.VelocityListSpread | src/levels/Level.java:46-63 | every angle lies in [135, 225], and side ball k of the first half mirrors side ball k of the second half about 180 |
| Levels.CreateLineOfBlocksColored | src/levels/Level.java:99-112 | it succeeds exactly when there are at least `number` colours; block i then sits at (first.x + i·width, first.y) with colour i, the given size and hit count |
| Levels.CreateLineOfBlocks | src/levels/Level.java:126-140 | `number` blocks (none for a negative number), block i at (first.x + i·width, first.y) with the given colour, size and hit count, each touching the next |
| Levels.LevelFromHelpers | src/levels/LevelInformation.java:20-58 | given blocks to remove ≤ number of blocks, a level whose velocities come from the helper meets both documented contracts (one velocity per ball for any n ≥ 0) and aims every ball within 45 degrees of 180 |
| GameLevels.NewLevel | src/game/GameLevel.java:77-82 | blocks counter = number of blocks to remove, balls counter = 0, lives and score are the shared ones, running |
| GameLevels.GameRectangle | src/game/GameLevel.java:226-229 | the game area lies inside all four margins |
| GameLevels.CreateScreen | src/game/GameLevel.java:193-220 | four walls at the window edges, all in game with hit count 0; top, left and right are gray and each get one BlockRemover on the blocks counter, the bottom wall is white and gets one BallRemover on the balls counter; nothing else changes |
| GameLevels.InitializeBlocks | src/game/GameLevel.java:151-160 | one in-game copy per level block with its geometry, colour and hit points, whose listeners gain exactly one BlockRemover and then one ScoreTrackingListener |
| GameLevels.Initialize | src/game/GameLevel.java:125-131 | initialisation places the four walls (rectangle, colour, hit count 0, in game, their one listener) and one in-game copy per level block with its geometry, colour and hit points and the two copy listeners appended; counters, running flag and level data are untouched |
| GameLevels.CreateBalls | src/game/GameLevel.java:167-187 | it fails exactly when fewer than n velocities exist; otherwise the balls counter rises by exactly n, nothing else changes, and ball i starts at (400, 570) with velocity i |
| GameLevels.WellFormedCreatesBalls | src/game/GameLevel.java:175-185 | a level meeting its documented contracts always has enough velocities for its balls |
| GameLevels.PlacePaddle | src/game/GameLevel.java:283-290 | the paddle's left x is 400 − paddleWidth / 2 in Java integer division, it sits at y = 575 with the level's width and speed |
| GameLevels.PaddleCentred | src/game/GameLevel.java:285-288 | an even-width paddle is centred exactly on x = 400, an odd one half a pixel to the right |
| GameLevels.FrameChecks | src/game/GameLevel.java:248-261 | blocks = 0 adds 100 to the score, balls = 0 takes one life, both may fire in one frame; the level stops iff it was stopped or one fired; if neither fires nothing changes |
| GameLevels.SpriteStep | src/game/GameLevel.java:264-265 | the sprites' step never changes the lives or the running flag |
| GameLevels.ShouldStop | src/game/GameLevel.java:273-275 | the animation stops exactly when the level is no longer running |
| GameLevels.NoMoreBlocks | src/game/GameLevel.java:308-310 | true exactly when the blocks counter reads zero |
| GameLevels.DoOneFrame | src/game/GameLevel.java:241-266 | one frame: lives drop by one exactly when no balls were left and never rise; the score gains 100 for a cleared board plus the sprites' points; the blocks and balls counters move only by the sprites' deltas; the level stops iff it was stopped, had no blocks or had no balls; level data, walls and blocks are kept |
| GameLevels.RunFrames | src/game/GameLevel.java:297-300 | the animation never fails, and when it finishes the level asks to stop |
| GameLevels.RunFramesLosesAtMostOneLife | src/game/GameLevel.java:255-261 | a finished animation cost at most one life, because the level stops as soon as the balls check fires |
| GameLevels.PlayOneTurn | src/game/GameLevel.java:281-303 | a turn fails exactly when the level lacks velocities for its balls; a finished turn ends stopped and costs at most one life |
| GameFlows.NewFlow | src/game/GameFlow.java:46-55 | a new game has 7 lives and score 0 |
| GameFlows.SelectLevelSet | src/game/GameFlow.java:236-238 | choosing a level set leaves exactly 7 lives and score 0, whatever they were |
| GameFlows.PlayLevel | src/game/GameFlow.java:123-125 | on exit no blocks remain or lives are 0; lives never rise and stay non-negative |
| GameFlows.RunLevels | src/game/GameFlow.java:116-143 | the loop computes exactly `PlayLevels`, the reference run: levels in list order, each a fresh level built on the lives and score the previous one left, initialized and played until no blocks or no lives remain, stopping at the first level that leaves no lives |
| GameFlows.PlayLevelsVerdict | src/game/GameFlow.java:126-141 | the win screen shows iff lives ≠ 0 after the levels; the lose screen only with 0 lives; neither only for an empty list started at 0 lives |
| GameFlows.PlayLevelsTally | src/game/GameFlow.java:117-133 | a loss skips the levels after the lost one and every earlier level was cleared; otherwise every level was played and cleared; each cleared level ended with its blocks counter at 0 |
| GameFlows.PlayLevelsLives | src/game/GameFlow.java:117-125 | over the levels lives never rise and stay ≥ 0 from a non-negative start; a run fails only on a level with fewer initial velocities than balls |
| GameFlows.PlayLevelSet | src/game/GameFlow.java:234-240 | the levels are run from the reset counters, and exactly one of win and lose is shown, with lives between 0 and 7 |
| SymbolsFactory.NewFactory | src/creators/BlocksFromSymbolsFactory.java:18-22 | a fresh factory knows no spacer and no block symbol |
| SymbolsFactory.AddSpacer | src/creators/BlocksFromSymbolsFactory.java:30-32 | the symbol is a spacer with exactly this width, every other spacer is unchanged, the block creators are untouched |
| SymbolsFactory.AddBlockCreator | src/creators/BlocksFromSymbolsFactory.java:40-42 | the key maps to this creator, every other key is unchanged, the spacers are untouched |
| SymbolsFactory.ScanKeys | src/creators/BlocksFromSymbolsFactory.java:49-72 | the scan over the keys answers true exactly when the string is a key |
| SymbolsFactory.IsSpaceSymbol | src/creators/BlocksFromSymbolsFactory.java:49-57 | true iff the string is a registered spacer |
| SymbolsFactory.IsBlockSymbol | src/creators/BlocksFromSymbolsFactory.java:64-72 | true iff the string is a registered block symbol |
| SymbolsFactory.GetSpaceWidth | src/creators/BlocksFromSymbolsFactory.java:79-81 | the registered width for a registered spacer, and the null-unboxing failure otherwise |
| SymbolsFactory.GetBlock | src/creators/BlocksFromSymbolsFactory.java:92-94 | the registered creator applied to (x, y), and the null-dereference failure for an unknown symbol |
| SymbolsFactory.FreshFactoryKnowsNothing | src/creators/BlocksFromSymbolsFactory.java:18-22 | a fresh factory answers no width and no block for any symbol |
| SymbolsFactory.SpacerLastWins | src/creators/BlocksFromSymbolsFactory.java:30-32 | a spacer's width can be read back, and re-adding a spacer overwrites its width |
| SymbolsFactory.RegistriesIndependent | src/creators/BlocksFromSymbolsFactory.java:30-42 | adding a spacer changes no block answer and adding a block creator changes no width answer |
| LevelSets.JavaSplit | src/io/LevelSetsReader.java:62 | no piece holds ':'; a line without ':' is returned whole; otherwise the pieces are the leading pieces of the full split up to its last non-empty piece, and every piece dropped is empty |
| LevelSets.JoinSplitAll | src/io/LevelSetsReader.java:62 | joining the pieces of a split with ':' gives the line back |
| LevelSets.SplitAllJoin | src/io/LevelSetsReader.java:62 | splitting a join of ':'-free pieces gives the pieces back |
| LevelSets.FewerThanTwoPieces | src/io/LevelSetsReader.java:62-63 | a line yields fewer than two pieces iff it has no ':' or nothing but empty pieces after the first |
| LevelSets.ParseKeyLine | src/io/LevelSetsReader.java:62-63 | a key line fails iff it has fewer than two pieces; otherwise key and name are ':'-free and "key:name" starts the line, so extra pieces are ignored |
| LevelSets.ParseKeyLinePieces | src/io/LevelSetsReader.java:62-63 | a parsed key line holds piece 0 of the full split as key and piece 1 as name |
| LevelSets.KeyLineRoundTrip | src/io/LevelSetsReader.java:62-63 | "key:name" with a ':'-free key and a non-empty ':'-free name parses to exactly (key, name) |
| LevelSets.KeyLinesAt | src/io/LevelSetsReader.java:57-60 | the key lines are the lines at odd line numbers 1, 3, 5, … in order |
| LevelSets.GetLevelSetMap | src/io/LevelSetsReader.java:51-71 | the Java loop gives the key lines applied in order to an empty map, failing at the first bad key line; an empty file gives an empty map |
| LevelSets.PathLinesIgnored | src/io/LevelSetsReader.java:58-64 | two files with the same odd-numbered lines give the same map, whatever their even-numbered lines |
| LevelSets.LastLineWins | src/io/LevelSetsReader.java:63 | each key maps to the name on the last key line that carries it |
| LevelSets.EntriesSucceedIff | src/io/LevelSetsReader.java:58-64 | the map is built iff every key line has at least two pieces |
| LevelSets.GetLevelPaths | src/io/LevelSetsReader.java:23-45 | exactly the even-numbered lines are level-file paths, one per pair of lines, in file order; an empty file gives none |

## Left out

- Drawing, keyboard polling, the animation runner's timing, the pause
  screen, the countdown, the indicators and the level background are user
  interface. Key presses reach the paddle step only as two booleans.
- Menus (`createMenu`, `createSubMenu`, `runMenu`), high-score loading and
  saving, the name dialog and the win/lose screens are I/O. The level-set
  task of `createSubMenu` is modelled as `SelectLevelSet`, and the screen
  shown is the verdict of `RunLevels`.
- `Velocity.fromAngleAndSpeed` and `Velocity.getSpeed` use trigonometry and
  a square root. `Paddles.Hit` takes the incoming speed as a parameter
  next to the velocity.
- Paddles.TimePassed: the truncation `(int)(dt * speed)` on the first frame
  is not computed. The rescaled speed is a parameter.
- `LevelSetsReader.getLevels` also opens each level file and parses it with
  `LevelSpecificationReader`. That is I/O and is not modelled:
  `GetLevelPaths` returns the selected paths instead. The `IOException`
  path of both readers is left out too, because the model reads from a
  sequence of lines.
- Ball motion, the closest-collision search, `Block.hit` (hit-point
  decrement and broadcast), `BallRemover` and the `Counter` internals live
  in classes outside this model. A hit is seen by a listener as the
  block's hit-point count at notification time, and `BallRemover` appears
  only in the wall wiring.
- `Block.copy` is not part of this model. `InitializeBlocks` takes it to
  keep rectangle, colour, hit points and listeners.
- `Line.middle` is taken to be the midpoint of the segment.
- Java `double` arithmetic is exact real arithmetic here: coordinates,
  widths and the division in `getRegion` carry no rounding, so results
  that depend on the last bit of a `double` are not modelled.
- GameLevels.RunFrames: `AnimationRunner.run` is not part of this model.
  It is taken to call `doOneFrame` while `shouldStop()` is false. Frames
  come from a finite script, so a game that would go on forever ends as
  `Stalled`.
- The unused `count` loop in the `GameLevel` constructor and the unused
  `angle` in `createBalls` have no effect and are not modelled.
- Both `gameRectangle` helpers are modelled. `Level.gameRectangle` is 575
  high, so its lower edge is the window's bottom. `GameLevel.gameRectangle`
  is 550 high.
- `runLevels` called with an empty level list and 0 lives shows neither
  screen. `RunLevels` reports this case as `NoVerdict`. It cannot happen
  after `SelectLevelSet`, which sets 7 lives.

=== FILE: blocks.dfy ===
/** The part of a Block that the listeners and the level see: its
    rectangle, colour, hit points, ordered listener list and whether it is
    still part of the game. The Block class itself is not part of this
    model; only the calls the listeners and the level make on it are. */
module Blocks {
  import opened Geometry
  import opened Counters

  /** A hit listener object. Java compares listeners by identity, so every
      listener carries a tag that makes distinct objects distinct values,
      and the counter it was constructed with. */
  datatype Listener =
    | BlockRemover(tag: nat, counter: CounterName)
    | ScoreTracker(tag: nat, counter: CounterName)
    | BallRemover(tag: nat, counter: CounterName)

  datatype Block = Block(
    rect: Rect,
    color: Color,
    hitPoints: int,
    listeners: seq<Listener>,
    inGame: bool)

  /** The list with every occurrence of `l` removed, others in order. */
  function Without(ls: seq<Listener>, l: Listener): (r: seq<Listener>)
    ensures l !in r
    ensures forall x :: x in r <==> x in ls && x != l
    ensures |r| <= |ls|
    ensures l !in ls ==> r == ls
    ensures multiset(r) == multiset(ls)[l := 0]
  {
    if ls == [] then []
    else
      assert ls == [ls[0]] + ls[1..];
      if ls[0] == l then Without(ls[1..], l)
      else [ls[0]] + Without(ls[1..], l)
  }

  function AddHitListener(b: Block, l: Listener): (r: Block)
    ensures r.listeners == b.listeners + [l]
    ensures r.(listeners := b.listeners) == b
  {
    b.(listeners := b.listeners + [l])
  }

  function RemoveHitListener(b: Block, l: Listener): (r: Block)
    ensures l !in r.listeners
    ensures forall x :: x != l ==> (x in r.listeners <==> x in b.listeners)
    ensures multiset(r.listeners) == multiset(b.listeners)[l := 0]
    ensures r.(listeners := b.listeners) == b
  {
    b.(listeners := Without(b.listeners, l))
  }

  /** Block.addToGame: the block joins the environment and the sprites. */
  function AddToGame(b: Block): (r: Block)
    ensures r.inGame
    ensures r.(inGame := b.inGame) == b
  {
    b.(inGame := true)
  }

  /** Block.removeFromGame: the block leaves the environment and sprites. */
  function RemoveFromGame(b: Block): (r: Block)
    ensures !r.inGame
    ensures r.(inGame := b.inGame) == b
  {
    b.(inGame := false)
  }
}

=== FILE: counters.dfy ===
/** The shared integer counters of a game: remaining blocks, remaining balls,
    score and lives. Java passes the same Counter object to every component
    that touches a tally; here the four tallies travel together as one value
    and each component names the tally it was constructed with. */
module Counters {

  datatype CounterName = RemainedBlocks | RemainedBalls | Score | Lives

  datatype Counters = Counters(blocks: int, balls: int, score: int, lives: int)

  /** Counter.getValue on the named counter. */
  function Get(cs: Counters, n: CounterName): int
  {
    match n
    case RemainedBlocks => cs.blocks
    case RemainedBalls => cs.balls
    case Score => cs.score
    case Lives => cs.lives
  }

  /** Counter.increase(k) on the named counter; nothing else changes. */
  function Increase(cs: Counters, n: CounterName, k: int): (r: Counters)
    ensures Get(r, n) == Get(cs, n) + k
    ensures forall m :: m != n ==> Get(r, m) == Get(cs, m)
  {
    match n
    case RemainedBlocks => cs.(blocks := cs.blocks + k)
    case RemainedBalls => cs.(balls := cs.balls + k)
    case Score => cs.(score := cs.score + k)
    case Lives => cs.(lives := cs.lives + k)
  }

  /** Counter.decrease(k) on the named counter; nothing else changes. */
  function Decrease(cs: Counters, n: CounterName, k: int): (r: Counters)
    ensures Get(r, n) == Get(cs, n) - k
    ensures forall m :: m != n ==> Get(r, m) == Get(cs, m)
  {
    Increase(cs, n, -k)
  }

  /** Two counter sets that differ at most in the named counter. */
  predicate SameExcept(a: Counters, b: Counters, n: CounterName)
  {
    forall m :: m != n ==> Get(a, m) == Get(b, m)
  }
}

=== FILE: factory.dfy ===
/** BlocksFromSymbolsFactory: two independent registries keyed by symbol,
    one of spacer widths and one of block creators. */
module SymbolsFactory {
  import opened Wrappers
  import opened Blocks

  /** A BlockCreator: builds a block at a given position. Its
      implementations are not part of this model. */
  type BlockCreator = (int, int) -> Block

  datatype Factory = Factory(spacerWidths: map<string, int>, blockCreators: map<string, BlockCreator>)

  /** The constructor: both registries start empty. */
  function NewFactory(): (f: Factory)
    ensures forall s :: s !in f.spacerWidths && s !in f.blockCreators
  {
    Factory(map[], map[])
  }

  /** addSpacer: registers or re-registers a spacer symbol with its width;
      the block creators are not touched. */
  function AddSpacer(f: Factory, spacer: string, width: int): (r: Factory)
    ensures spacer in r.spacerWidths && r.spacerWidths[spacer] == width
    ensures forall s :: s != spacer ==>
      (s in r.spacerWidths <==> s in f.spacerWidths) &&
      (s in f.spacerWidths ==> r.spacerWidths[s] == f.spacerWidths[s])
    ensures r.blockCreators == f.blockCreators
  {
    f.(spacerWidths := f.spacerWidths[spacer := width])
  }

  /** addBlockCreator: registers or re-registers a block symbol; the
      spacer widths are not touched. */
  function AddBlockCreator(f: Factory, key: string, creator: BlockCreator): (r: Factory)
    ensures key in r.blockCreators && r.blockCreators[key] == creator
    ensures forall s :: s != key ==>
      (s in r.blockCreators <==> s in f.blockCreators) &&
      (s in f.blockCreators ==> r.blockCreators[s] == f.blockCreators[s])
    ensures r.spacerWidths == f.spacerWidths
  {
    f.(blockCreators := f.blockCreators[key := creator])
  }

  /** The key scan shared by isSpaceSymbol and isBlockSymbol: visit the
      keys one by one and answer true on the first equal one. */
  method ScanKeys(keys: set<string>, s: string) returns (found: bool)
    ensures found <==> s in keys
  {
    var rest := keys;
    while rest != {}
      invariant rest <= keys
      invariant s in keys ==> s in rest
      decreases rest
    {
      var key :| key in rest;
      if key == s {
        return true;
      }
      rest := rest - {key};
    }
    return false;
  }

  /** isSpaceSymbol: true exactly for registered spacer symbols. */
  method IsSpaceSymbol(f: Factory, s: string) returns (b: bool)
    ensures b <==> s in f.spacerWidths
  {
    b := ScanKeys(f.spacerWidths.Keys, s);
  }

  /** isBlockSymbol: true exactly for registered block symbols. */
  method IsBlockSymbol(f: Factory, s: string) returns (b: bool)
    ensures b <==> s in f.blockCreators
  {
    b := ScanKeys(f.blockCreators.Keys, s);
  }

  /** getSpaceWidth: the registered width. Unboxing the null that a missing
      key yields throws in Java; here that is None. */
  function GetSpaceWidth(f: Factory, s: string): (r: Option<int>)
    ensures r.Some? <==> s in f.spacerWidths
    ensures r.Some? ==> r.value == f.spacerWidths[s]
  {
    if s in f.spacerWidths then Some(f.spacerWidths[s]) else None
  }

  /** getBlock: the registered creator asked for a block at (x, y); a
      missing symbol dereferences null in Java, here None. */
  function GetBlock(f: Factory, s: string, x: int, y: int): (r: Option<Block>)
    ensures r.Some? <==> s in f.blockCreators
    ensures r.Some? ==> r.value == f.blockCreators[s](x, y)
  {
    if s in f.blockCreators then Some(f.blockCreators[s](x, y)) else None
  }

  /** A fresh factory answers no spacer width and no block. */
  lemma FreshFactoryKnowsNothing(s: string, x: int, y: int)
    ensures GetSpaceWidth(NewFactory(), s) == None
    ensures GetBlock(NewFactory(), s, x, y) == None
  {
  }

  /** After addSpacer the width is returned; a second addSpacer of the same
      symbol replaces the first width. */
  lemma SpacerLastWins(f: Factory, s: string, w1: int, w2: int)
    ensures GetSpaceWidth(AddSpacer(f, s, w1), s) == Some(w1)
    ensures AddSpacer(AddSpacer(f, s, w1), s, w2) == AddSpacer(f, s, w2)
  {
  }

  /** The registries are independent: adding a spacer changes no block
      answer and adding a block creator changes no spacer answer. */
  lemma RegistriesIndependent(f: Factory, sp: string, w: int, key: string, c: BlockCreator,
                              s: string, x: int, y: int)
    ensures GetBlock(AddSpacer(f, sp, w), s, x, y) == GetBlock(f, s, x, y)
    ensures GetSpaceWidth(AddBlockCreator(f, key, c), s) == GetSpaceWidth(f, s)
  {
  }
}

=== FILE: gameflow.dfy ===
/** GameFlow: the game's lives and score, the reset when a level set is
    chosen, and the loop that plays a level set level by level until the
    lives run out. Menus, high scores, dialogs and the win and lose screens
    are not part of this model; which screen runs is the verdict. */
module GameFlows {
  import opened Counters
  import opened GameLevels
  import Levels

  const StartLives: int := 7

  /** The two counters GameFlow owns and shares with every level. */
  datatype Flow = Flow(lives: int, score: int)

  /** The constructor: seven lives and no score. */
  function NewFlow(): (f: Flow)
    ensures f.lives == StartLives && f.score == 0
  {
    Flow(StartLives, 0)
  }

  /** The level-set task of createSubMenu: lives are raised by the
      difference to seven and the score lowered by itself, which resets
      both whatever they were. */
  function SelectLevelSet(f: Flow): (r: Flow)
    ensures r.lives == StartLives && r.score == 0
  {
    var lives := Get(Increase(Counters(0, 0, f.score, f.lives), Lives, StartLives - f.lives), Lives);
    var score := Get(Decrease(Counters(0, 0, f.score, f.lives), Score, f.score), Score);
    Flow(lives, score)
  }

  /** The turn loop of runLevels for one level: turns are played while
      blocks remain and lives are not zero. Each turn's frames come from a
      finite script. */
  function PlayLevel(l: LevelState, turns: seq<seq<Effect>>): (r: Run<(LevelState, seq<seq<Effect>>)>)
    ensures r.Done? ==> NoMoreBlocks(r.state.0) || Get(r.state.0.counters, Lives) == 0
    ensures r.Done? ==> Get(r.state.0.counters, Lives) <= Get(l.counters, Lives)
    ensures r.Done? && Get(l.counters, Lives) >= 0 ==> Get(r.state.0.counters, Lives) >= 0
    ensures r.Done? ==> r.state.0.info == l.info
    ensures r.Failed? ==> l.info.numberOfBalls > |l.info.initialBallVelocities|
    decreases |turns|
  {
    if NoMoreBlocks(l) || Get(l.counters, Lives) == 0 then Done((l, turns))
    else if turns == [] then Stalled
    else match PlayOneTurn(l, turns[0])
      case Done(next) =>
        assert next.info == l.info by { PlayOneTurnKeepsInfo(l, turns[0]); }
        PlayLevel(next, turns[1..])
      case Stalled => Stalled
      case Failed(e) => Failed(e)
  }

  lemma PlayOneTurnKeepsInfo(l: LevelState, frames: seq<Effect>)
    ensures PlayOneTurn(l, frames).Done? ==> PlayOneTurn(l, frames).state.info == l.info
  {
    if CreateBalls(l, l.info.numberOfBalls).Success? {
      var started := CreateBalls(l, l.info.numberOfBalls).value.0.(running := true);
      RunFramesKeepsInfo(started, frames);
    }
  }

  lemma {:induction false} RunFramesKeepsInfo(l: LevelState, frames: seq<Effect>)
    ensures RunFrames(l, frames).Done? ==> RunFrames(l, frames).state.info == l.info
    decreases |frames|
  {
    if !ShouldStop(l) && frames != [] {
      RunFramesKeepsInfo(DoOneFrame(l, frames[0]), frames[1..]);
    }
  }

  /** Which closing screen runLevels shows, if any. */
  datatype Verdict = Won | Lost | NoVerdict

  /** The verdict, the final counters, how many levels were started, how
      many of them were left with lives to spare, and the blocks counter
      each started level ended with, in order. */
  datatype Outcome = Outcome(verdict: Verdict, flow: Flow, played: nat, cleared: nat, remaining: seq<int>)

  /** Reference definition of runLevels: the first level is built on the
      shared lives and score, initialized and played; no lives left ends
      the run with the lose screen, otherwise the rest of the levels follow
      on the counters it left. After the last level the win screen shows
      when lives are not zero. */
  function PlayLevels(flow: Flow, levels: seq<Levels.LevelInfo>, turns: seq<seq<Effect>>): Run<Outcome>
    decreases |levels|
  {
    if levels == [] then
      Done(Outcome(if flow.lives != 0 then Won else NoVerdict, flow, 0, 0, []))
    else
      var level := Initialized(NewLevel(levels[0], flow.lives, flow.score));
      match PlayLevel(level, turns)
      case Stalled => Stalled
      case Failed(e) => Failed(e)
      case Done((finished, rest)) =>
        var next := Flow(Get(finished.counters, Lives), Get(finished.counters, Score));
        var left := Get(finished.counters, RemainedBlocks);
        if next.lives == 0 then Done(Outcome(Lost, next, 1, 0, [left]))
        else After(PlayLevels(next, levels[1..], rest), 1, [left])
  }

  /** A run of later levels, preceded by `played` levels that were all
      cleared and ended with the blocks counters `remaining`. */
  function After(r: Run<Outcome>, played: nat, remaining: seq<int>): Run<Outcome>
  {
    match r
    case Done(o) =>
      Done(o.(played := played + o.played, cleared := played + o.cleared, remaining := remaining + o.remaining))
    case Stalled => Stalled
    case Failed(e) => Failed(e)
  }

  lemma AfterAfter(r: Run<Outcome>, p: nat, rem: seq<int>, q: nat, rem2: seq<int>)
    ensures After(After(r, q, rem2), p, rem) == After(r, p + q, rem + rem2)
  {
    if r.Done? {
      assert rem + (rem2 + r.state.remaining) == (rem + rem2) + r.state.remaining;
    }
  }

  lemma AfterNothing(r: Run<Outcome>)
    ensures After(r, 0, []) == r
  {
    if r.Done? {
      assert [] + r.state.remaining == r.state.remaining;
    }
  }

  /** The closing screen of a run of levels: the win screen shows iff
      lives are not zero at the end, the lose screen only with no lives
      left, and neither only for an empty list started with no lives. */
  lemma {:induction false} PlayLevelsVerdict(flow: Flow, levels: seq<Levels.LevelInfo>, turns: seq<seq<Effect>>)
    ensures var r := PlayLevels(flow, levels, turns);
      && (r.Done? ==> (r.state.verdict == Won <==> r.state.flow.lives != 0))
      && (r.Done? && r.state.verdict == Lost ==> r.state.flow.lives == 0)
      && (r.Done? && r.state.verdict == NoVerdict ==> levels == [] && flow.lives == 0)
    decreases |levels|
  {
    if levels != [] {
      var run := PlayLevel(Initialized(NewLevel(levels[0], flow.lives, flow.score)), turns);
      if run.Done? {
        var (finished, rest) := run.state;
        var next := Flow(Get(finished.counters, Lives), Get(finished.counters, Score));
        if next.lives != 0 {
          PlayLevelsVerdict(next, levels[1..], rest);
        }
      }
    }
  }

  /** Which levels were played and cleared: a loss skips the levels after
      the lost one, all earlier ones having been cleared; a win plays and
      clears every level; every cleared level ended with no blocks left. */
  lemma {:induction false} PlayLevelsTally(flow: Flow, levels: seq<Levels.LevelInfo>, turns: seq<seq<Effect>>)
    ensures var r := PlayLevels(flow, levels, turns);
      && (r.Done? && r.state.verdict == Lost ==>
            1 <= r.state.played <= |levels| && r.state.cleared == r.state.played - 1)
      && (r.Done? && r.state.verdict != Lost ==>
            r.state.played == |levels| && r.state.cleared == |levels|)
      && (r.Done? ==> r.state.cleared <= r.state.played == |r.state.remaining|)
      && (r.Done? ==> forall i :: 0 <= i < r.state.cleared ==> r.state.remaining[i] == 0)
    decreases |levels|
  {
    if levels != [] {
      var run := PlayLevel(Initialized(NewLevel(levels[0], flow.lives, flow.score)), turns);
      if run.Done? {
        var (finished, rest) := run.state;
        var next := Flow(Get(finished.counters, Lives), Get(finished.counters, Score));
        var left := Get(finished.counters, RemainedBlocks);
        if next.lives != 0 {
          PlayLevelsTally(next, levels[1..], rest);
          var sub := PlayLevels(next, levels[1..], rest);
          assert left == 0;
          if sub.Done? {
            var o := After(sub, 1, [left]).state;
            forall i | 0 <= i < o.cleared
              ensures o.remaining[i] == 0
            {
              if i > 0 {
                assert o.remaining[i] == sub.state.remaining[i - 1];
              }
            }
          }
        }
      }
    }
  }

  /** Lives over a run of levels never rise, never go below zero from a
      non-negative start, and a run fails only on a level with fewer
      initial velocities than balls. */
  lemma {:induction false} PlayLevelsLives(flow: Flow, levels: seq<Levels.LevelInfo>, turns: seq<seq<Effect>>)
    ensures var r := PlayLevels(flow, levels, turns);
      && (r.Done? ==> r.state.flow.lives <= flow.lives)
      && (r.Done? && flow.lives >= 0 ==> r.state.flow.lives >= 0)
      && (r.Failed? ==>
            exists i :: 0 <= i < |levels| && levels[i].numberOfBalls > |levels[i].initialBallVelocities|)
    decreases |levels|
  {
    if levels != [] {
      var run := PlayLevel(Initialized(NewLevel(levels[0], flow.lives, flow.score)), turns);
      if run.Done? {
        var (finished, rest) := run.state;
        var next := Flow(Get(finished.counters, Lives), Get(finished.counters, Score));
        if next.lives != 0 {
          PlayLevelsLives(next, levels[1..], rest);
          if PlayLevels(next, levels[1..], rest).Failed? {
            var i :| 0 <= i < |levels[1..]| && levels[1..][i].numberOfBalls > |levels[1..][i].initialBallVelocities|;
            assert levels[i + 1] == levels[1..][i];
          }
        }
      } else if run.Failed? {
        assert levels[0].numberOfBalls > |levels[0].initialBallVelocities|;
      }
    }
  }

  /** One pass of runLevels' loop body before the lives check: a fresh
      level on the shared counters, initialized, then its turn loop. */
  method StartLevel(info: Levels.LevelInfo, flow: Flow, script: seq<seq<Effect>>)
    returns (run: Run<(LevelState, seq<seq<Effect>>)>)
    ensures run == PlayLevel(Initialized(NewLevel(info, flow.lives, flow.score)), script)
  {
    var level := NewLevel(info, flow.lives, flow.score);
    level := Initialize(level);
    run := PlayLevel(level, script);
  }

  /** GameFlow.runLevels. Levels run in list order, each a fresh level
      sharing the game's lives and score; the loop computes exactly the
      reference run, so PlayLevelsVerdict, PlayLevelsTally and
      PlayLevelsLives describe its screens. */
  method RunLevels(f: Flow, levels: seq<Levels.LevelInfo>, turns: seq<seq<Effect>>)
    returns (r: Run<Outcome>)
    ensures r == PlayLevels(f, levels, turns)
  {
    var flow := f;
    var script := turns;
    var played := 0;
    var cleared := 0;
    var lost := false;
    var remaining: seq<int> := [];
    AfterNothing(PlayLevels(f, levels, turns));
    while played < |levels| && !lost
      invariant 0 <= played <= |levels|
      invariant cleared == (if lost then played - 1 else played)
      invariant !lost ==> PlayLevels(f, levels, turns) == After(PlayLevels(flow, levels[played..], script), played, remaining)
      invariant lost ==> PlayLevels(f, levels, turns) == Done(Outcome(Lost, flow, played, cleared, remaining))
    {
      var run := StartLevel(levels[played], flow, script);
      ghost var todo := levels[played..];
      assert todo[0] == levels[played];
      if run.Stalled? {
        return Stalled;
      }
      if run.Failed? {
        return Failed(run.error);
      }
      var (finished, rest) := run.state;
      ghost var (before, beforePlayed, beforeFlow, beforeScript) := (remaining, played, flow, script);
      var left := Get(finished.counters, RemainedBlocks);
      script := rest;
      flow := Flow(Get(finished.counters, Lives), Get(finished.counters, Score));
      remaining := remaining + [left];
      played := played + 1;
      if flow.lives == 0 {
        lost := true;
      } else {
        cleared := cleared + 1;
        assert todo[1..] == levels[played..];
        assert PlayLevels(beforeFlow, todo, beforeScript) == After(PlayLevels(flow, levels[played..], script), 1, [left]);
        AfterAfter(PlayLevels(flow, levels[played..], script), beforePlayed, before, 1, [left]);
      }
    }
    var verdict := if lost then Lost else if flow.lives != 0 then Won else NoVerdict;
    if !lost {
      assert levels[played..] == [];
      assert remaining + [] == remaining;
    }
    return Done(Outcome(verdict, flow, played, cleared, remaining));
  }

  /** A level set chosen from the menu: reset, then run. Starting from seven
      lives, exactly one of the win and lose screens is shown. */
  method PlayLevelSet(f: Flow, levels: seq<Levels.LevelInfo>, turns: seq<seq<Effect>>)
    returns (r: Run<Outcome>)
    ensures r == PlayLevels(SelectLevelSet(f), levels, turns)
    ensures r.Done? ==> r.state.verdict == Won || r.state.verdict == Lost
    ensures r.Done? ==> 0 <= r.state.flow.lives <= StartLives
  {
    r := RunLevels(SelectLevelSet(f), levels, turns);
    PlayLevelsVerdict(SelectLevelSet(f), levels, turns);
    PlayLevelsLives(SelectLevelSet(f), levels, turns);
  }
}

=== FILE: gamelevel.dfy ===
/** GameLevel: counter set-up, listener wiring, ball creation, paddle
    placement and the per-frame terminal checks. Drawing, the keyboard,
    the pause screen and the countdown are not part of this model; the
    sprites' motion is an abstract step that only moves counters. */
module GameLevels {
  import opened Wrappers
  import opened Geometry
  import opened Counters
  import opened Blocks
  import Levels
  import Paddles

  const WallCount: nat := 4
  const BallRadius: int := 5

  datatype Ball = Ball(center: Point, radius: int, color: Color, velocity: Polar)

  /** A level in play: its information, its counters (the lives and score
      are the game's shared ones), the running flag, the four screen walls
      and the copies of the level's blocks. */
  datatype LevelState = LevelState(
    info: Levels.LevelInfo,
    counters: Counters,
    running: bool,
    walls: seq<Block>,
    blocks: seq<Block>)

  /** The constructor: the blocks counter starts at the level's number of
      blocks to remove, the balls counter at zero, and the level runs. */
  function NewLevel(info: Levels.LevelInfo, lives: int, score: int): (l: LevelState)
    ensures Get(l.counters, RemainedBlocks) == info.numberOfBlocksToRemove
    ensures Get(l.counters, RemainedBalls) == 0
    ensures Get(l.counters, Lives) == lives && Get(l.counters, Score) == score
    ensures l.running && l.info == info
    ensures l.walls == [] && l.blocks == []
  {
    LevelState(info, Counters(info.numberOfBlocksToRemove, 0, score, lives), true, [], [])
  }

  /** GameLevel.gameRectangle: the playing area inside all four margins. */
  function GameRectangle(): (r: Rect)
    ensures r.Left() == ScreenMargin as real && r.Top() == ScreenMargin as real
    ensures r.Right() == (GuiWidth - ScreenMargin) as real
    ensures r.Bottom() == (GuiHeight - ScreenMargin) as real
  {
    Rect(Point(ScreenMargin as real, ScreenMargin as real),
         (GuiWidth - 2 * ScreenMargin) as real, (GuiHeight - 2 * ScreenMargin) as real)
  }

  /** The middle of the game rectangle's lower edge, where the paddle and
      the balls start (Line.middle is taken to be the midpoint). */
  function BottomMiddle(): (p: Point)
    ensures p == Point(400.0, 575.0)
  {
    var screen := GameRectangle();
    Point((screen.Left() + screen.Right()) / 2.0, screen.Bottom())
  }

  // ---------------------------------------------------------------------
  // Wiring

  /** The wall listeners get tags 0 to 3, the block copies' listeners
      tags from 4 on, so that distinct Java objects are distinct values. */
  function WallListener(i: nat): (l: Listener)
    requires i < WallCount
  {
    if i == WallCount - 1 then BallRemover(i, RemainedBalls) else BlockRemover(i, RemainedBlocks)
  }

  function WallRect(i: nat): Rect
    requires i < WallCount
  {
    if i == 0 then Rect(Point(0.0, 0.0), GuiWidth as real, ScreenMargin as real)
    else if i == 1 then Rect(Point(0.0, 0.0), ScreenMargin as real, GuiHeight as real)
    else if i == 2 then Rect(Point((GuiWidth - ScreenMargin) as real, 0.0), ScreenMargin as real, GuiHeight as real)
    else Rect(Point(ScreenMargin as real, GuiHeight as real), GuiWidth as real, 0.0)
  }

  /** The top, left and right walls are gray; the bottom one is white. */
  function WallColor(i: nat): Color
  {
    if i == WallCount - 1 then White else Gray
  }

  /** Reference definition of the four walls once they are in the game. */
  function ScreenWalls(): (ws: seq<Block>)
    ensures |ws| == WallCount
  {
    seq(WallCount, i requires 0 <= i < WallCount =>
      Block(WallRect(i), WallColor(i), 0, [WallListener(i)], true))
  }

  /** GameLevel.createScreen: the top, left, right and bottom walls, each
      added to the game with one listener and its hit count set to 0. The
      bottom wall, the death region, gets a BallRemover on the balls
      counter; the other three get a BlockRemover on the blocks counter. */
  method CreateScreen(l: LevelState) returns (r: LevelState)
    ensures |r.walls| == WallCount
    ensures forall i :: 0 <= i < WallCount ==>
      && r.walls[i].rect == WallRect(i)
      && r.walls[i].hitPoints == 0
      && r.walls[i].inGame
    ensures forall i :: 0 <= i < WallCount - 1 ==>
      r.walls[i].listeners == [BlockRemover(i, RemainedBlocks)]
    ensures r.walls[WallCount - 1].listeners == [BallRemover(WallCount - 1, RemainedBalls)]
    ensures forall i :: 0 <= i < WallCount - 1 ==> r.walls[i].color == Gray
    ensures r.walls[WallCount - 1].color == White
    ensures r == l.(walls := r.walls)
    ensures r.walls == ScreenWalls()
  {
    var screen := [
      Block(WallRect(0), Gray, 0, [], false),
      Block(WallRect(1), Gray, 0, [], false),
      Block(WallRect(2), Gray, 0, [], false),
      Block(WallRect(3), White, 0, [], false)];
    var walls: seq<Block> := [];
    var i := 0;
    while i < |screen|
      invariant 0 <= i <= |screen| && |walls| == i
      invariant forall j :: 0 <= j < i ==> walls[j] == ScreenWalls()[j]
    {
      var part := AddToGame(screen[i]);
      if i != |screen| - 1 {
        part := AddHitListener(part, BlockRemover(i, RemainedBlocks));
      } else {
        part := AddHitListener(part, BallRemover(i, RemainedBalls));
      }
      part := part.(hitPoints := 0);
      walls := walls + [part];
      i := i + 1;
    }
    r := l.(walls := walls);
  }

  /** The listeners a block copy gets, in registration order. */
  function CopyListeners(i: nat): seq<Listener>
  {
    [BlockRemover(WallCount + i, RemainedBlocks), ScoreTracker(WallCount + i, Score)]
  }

  /** Reference definition of the block copies: each block in the game
      with the copy listeners appended to its own. */
  function BlockCopies(blocks: seq<Block>): (cs: seq<Block>)
    ensures |cs| == |blocks|
  {
    seq(|blocks|, i requires 0 <= i < |blocks| =>
      blocks[i].(inGame := true, listeners := blocks[i].listeners + CopyListeners(i)))
  }

  /** GameLevel.initializeBlocks: each of the level's blocks is copied,
      added to the game, and given one BlockRemover on the blocks counter
      followed by one ScoreTrackingListener on the score. Block.copy is
      taken to keep rectangle, colour, hit points and listeners. */
  method InitializeBlocks(l: LevelState) returns (r: LevelState)
    ensures |r.blocks| == |l.info.blocks|
    ensures forall i :: 0 <= i < |r.blocks| ==>
      && r.blocks[i].listeners == l.info.blocks[i].listeners + CopyListeners(i)
      && r.blocks[i].inGame
      && r.blocks[i].rect == l.info.blocks[i].rect
      && r.blocks[i].color == l.info.blocks[i].color
      && r.blocks[i].hitPoints == l.info.blocks[i].hitPoints
    ensures r == l.(blocks := r.blocks)
    ensures r.blocks == BlockCopies(l.info.blocks)
  {
    var copies: seq<Block> := [];
    var i := 0;
    while i < |l.info.blocks|
      invariant 0 <= i <= |l.info.blocks| && |copies| == i
      invariant forall j :: 0 <= j < i ==>
        copies[j] == l.info.blocks[j].(inGame := true, listeners := l.info.blocks[j].listeners + CopyListeners(j))
    {
      var copy := l.info.blocks[i];
      copy := AddToGame(copy);
      copy := AddHitListener(copy, BlockRemover(WallCount + i, RemainedBlocks));
      copy := AddHitListener(copy, ScoreTracker(WallCount + i, Score));
      copies := copies + [copy];
      i := i + 1;
    }
    r := l.(blocks := copies);
  }

  /** GameLevel.initialize without the background and the indicators:
      the walls, then the block copies. The counters are not touched. */
  method Initialize(l: LevelState) returns (r: LevelState)
    ensures r == l.(walls := r.walls, blocks := r.blocks)
    ensures |r.walls| == WallCount && |r.blocks| == |l.info.blocks|
    ensures forall i :: 0 <= i < WallCount ==>
      && r.walls[i].rect == WallRect(i)
      && r.walls[i].color == WallColor(i)
      && r.walls[i].hitPoints == 0
      && r.walls[i].inGame
      && r.walls[i].listeners == [WallListener(i)]
    ensures forall i :: 0 <= i < |r.blocks| ==>
      && r.blocks[i].listeners == l.info.blocks[i].listeners + CopyListeners(i)
      && r.blocks[i].inGame
      && r.blocks[i].rect == l.info.blocks[i].rect
      && r.blocks[i].color == l.info.blocks[i].color
      && r.blocks[i].hitPoints == l.info.blocks[i].hitPoints
    ensures r == Initialized(l)
  {
    r := CreateScreen(l);
    r := InitializeBlocks(r);
  }

  /** Reference definition of an initialized level. */
  function Initialized(l: LevelState): LevelState
  {
    l.(walls := ScreenWalls(), blocks := BlockCopies(l.info.blocks))
  }

  // ---------------------------------------------------------------------
  // Balls and paddle

  /** GameLevel.createBalls: the balls counter goes up by n, then ball i
      starts 5 pixels above the bottom middle with initial velocity i.
      Fewer than n initial velocities make the list read throw. */
  function CreateBalls(l: LevelState, n: int): (r: Result<(LevelState, seq<Ball>)>)
    ensures r.Success? <==> n <= |l.info.initialBallVelocities|
    ensures r.Failure? ==> r.error == IndexOutOfBounds
    ensures r.Success? ==>
      var (l', balls) := r.value;
      && Get(l'.counters, RemainedBalls) == Get(l.counters, RemainedBalls) + n
      && SameExcept(l'.counters, l.counters, RemainedBalls)
      && l' == l.(counters := l'.counters)
      && |balls| == (if n > 0 then n else 0)
      && forall i :: 0 <= i < |balls| ==>
           && balls[i].velocity == l.info.initialBallVelocities[i]
           && balls[i].center == Point(400.0, 570.0)
           && balls[i].radius == BallRadius
  {
    var counters := Increase(l.counters, RemainedBalls, n);
    var start := BottomMiddle();
    if n > |l.info.initialBallVelocities| then Failure(IndexOutOfBounds)
    else
      var count := if n > 0 then n else 0;
      var balls := seq(count, i requires 0 <= i < count =>
        Ball(Point(start.x.Floor as real, (start.y.Floor - 5) as real), BallRadius, White,
             l.info.initialBallVelocities[i]));
      Success((l.(counters := counters), balls))
  }

  /** A well-formed level never fails to create its balls. */
  lemma WellFormedCreatesBalls(l: LevelState)
    requires Levels.WellFormed(l.info)
    ensures CreateBalls(l, l.info.numberOfBalls).Success?
  {
  }

  /** The paddle placement of playOneTurn: its left edge is the bottom
      middle minus half the paddle width in Java integer division, it sits
      on the bottom of the game rectangle, and it moves at the level's
      paddle speed. */
  function PlacePaddle(info: Levels.LevelInfo): (p: Paddles.Paddle)
    ensures p.rect.Left() == 400.0 - JavaDiv(info.paddleWidth, 2) as real
    ensures p.rect.Top() == 575.0
    ensures p.rect.width == info.paddleWidth as real && p.rect.height == PaddleHeight as real
    ensures p.speed == info.paddleSpeed && p.firstFrame
  {
    var position := BottomMiddle();
    var upperLeft := Point(position.x - JavaDiv(info.paddleWidth, 2) as real, position.y);
    var paddle := Paddles.NewPaddle(Rect(upperLeft, info.paddleWidth as real, PaddleHeight as real));
    paddle.(speed := info.paddleSpeed)
  }

  /** An even-width paddle is centred exactly on the screen's middle; an
      odd positive width leaves it half a pixel to the right. */
  lemma PaddleCentred(info: Levels.LevelInfo)
    requires info.paddleWidth >= 0
    ensures info.paddleWidth % 2 == 0 ==>
      PlacePaddle(info).rect.Left() + PlacePaddle(info).rect.width / 2.0 == 400.0
    ensures info.paddleWidth % 2 == 1 ==>
      PlacePaddle(info).rect.Left() + PlacePaddle(info).rect.width / 2.0 == 400.5
  {
  }

  // ---------------------------------------------------------------------
  // Frames

  /** What one step of the sprites does to the counters (ball motion,
      collisions and the listeners they fire are not part of this model):
      it may change the blocks and balls counters and the score, never the
      lives. */
  datatype Effect = Effect(blocksDelta: int, ballsDelta: int, points: int)

  /** GameLevel.shouldStop: the animation stops once the level is no
      longer running. */
  predicate ShouldStop(l: LevelState): (b: bool)
    ensures b <==> !l.running
  {
    !l.running
  }

  /** GameLevel.noMoreBlocks: true when the blocks counter reads zero. */
  predicate NoMoreBlocks(l: LevelState): (b: bool)
    ensures b <==> l.counters.blocks == 0
  {
    Get(l.counters, RemainedBlocks) == 0
  }

  /** The two terminal checks of doOneFrame: no blocks left is worth 100
      points and stops the level; no balls left costs a life and stops it.
      Both may fire in the same frame. */
  function FrameChecks(l: LevelState): (r: LevelState)
    ensures Get(r.counters, Score) ==
      Get(l.counters, Score) + (if NoMoreBlocks(l) then 100 else 0)
    ensures Get(r.counters, Lives) ==
      Get(l.counters, Lives) - (if Get(l.counters, RemainedBalls) == 0 then 1 else 0)
    ensures Get(r.counters, RemainedBlocks) == Get(l.counters, RemainedBlocks)
    ensures Get(r.counters, RemainedBalls) == Get(l.counters, RemainedBalls)
    ensures ShouldStop(r) <==> ShouldStop(l) || NoMoreBlocks(l) || Get(l.counters, RemainedBalls) == 0
    ensures !NoMoreBlocks(l) && Get(l.counters, RemainedBalls) != 0 ==> r == l
    ensures r == l.(counters := r.counters, running := r.running)
  {
    var afterBlocks :=
      if Get(l.counters, RemainedBlocks) == 0
      then l.(counters := Increase(l.counters, Score, 100), running := false)
      else l;
    if Get(afterBlocks.counters, RemainedBalls) == 0
    then afterBlocks.(counters := Decrease(afterBlocks.counters, Lives, 1), running := false)
    else afterBlocks
  }

  /** notifyAllTimePassed, abstracted to its effect on the counters. */
  function SpriteStep(l: LevelState, e: Effect): (r: LevelState)
    ensures Get(r.counters, Lives) == Get(l.counters, Lives)
    ensures r.running == l.running
  {
    var c := l.counters;
    l.(counters := Counters(c.blocks + e.blocksDelta, c.balls + e.ballsDelta, c.score + e.points, c.lives))
  }

  /** GameLevel.doOneFrame: the checks, then the sprites' step. */
  function DoOneFrame(l: LevelState, e: Effect): (r: LevelState)
    ensures Get(r.counters, Lives) ==
      Get(l.counters, Lives) - (if Get(l.counters, RemainedBalls) == 0 then 1 else 0)
    ensures Get(r.counters, Lives) <= Get(l.counters, Lives)
    ensures Get(r.counters, Score) ==
      Get(l.counters, Score) + (if NoMoreBlocks(l) then 100 else 0) + e.points
    ensures Get(r.counters, RemainedBlocks) == Get(l.counters, RemainedBlocks) + e.blocksDelta
    ensures Get(r.counters, RemainedBalls) == Get(l.counters, RemainedBalls) + e.ballsDelta
    ensures ShouldStop(r) <==> ShouldStop(l) || NoMoreBlocks(l) || Get(l.counters, RemainedBalls) == 0
    ensures r.info == l.info && r.walls == l.walls && r.blocks == l.blocks
  {
    SpriteStep(FrameChecks(l), e)
  }

  /** The result of running something on a finite script of frames or
      turns: it finished, the script ran out first, or setup failed. */
  datatype Run<T> = Done(state: T) | Stalled | Failed(error: Error)

  /** The animation loop (AnimationRunner.run): frames run while the level
      does not ask to stop. */
  function RunFrames(l: LevelState, frames: seq<Effect>): (r: Run<LevelState>)
    ensures !r.Failed?
    ensures r.Done? ==> ShouldStop(r.state)
    decreases |frames|
  {
    if ShouldStop(l) then Done(l)
    else if frames == [] then Stalled
    else RunFrames(DoOneFrame(l, frames[0]), frames[1..])
  }

  /** A finished animation has been asked to stop, and it cost at most one
      life: once the balls check fires the level stops. */
  lemma {:induction false} RunFramesLosesAtMostOneLife(l: LevelState, frames: seq<Effect>)
    ensures RunFrames(l, frames).Done? ==>
      && ShouldStop(RunFrames(l, frames).state)
      && Get(l.counters, Lives) - 1 <= Get(RunFrames(l, frames).state.counters, Lives) <= Get(l.counters, Lives)
    ensures RunFrames(l, frames).Done? && ShouldStop(l) ==> RunFrames(l, frames).state == l
    decreases |frames|
  {
    if !ShouldStop(l) && frames != [] {
      var next := DoOneFrame(l, frames[0]);
      if ShouldStop(next) {
        assert RunFrames(next, frames[1..]) == Done(next);
      } else {
        assert Get(next.counters, Lives) == Get(l.counters, Lives);
        RunFramesLosesAtMostOneLife(next, frames[1..]);
      }
    }
  }

  /** GameLevel.playOneTurn, counters only: the balls are created (the
      paddle is placed and later removed, which touches no counter), the
      level is set running and the animation runs. */
  function PlayOneTurn(l: LevelState, frames: seq<Effect>): (r: Run<LevelState>)
    ensures r.Failed? <==> l.info.numberOfBalls > |l.info.initialBallVelocities|
    ensures r.Done? ==> ShouldStop(r.state)
    ensures r.Done? ==>
      Get(l.counters, Lives) - 1 <= Get(r.state.counters, Lives) <= Get(l.counters, Lives)
  {
    match CreateBalls(l, l.info.numberOfBalls)
    case Failure(e) => Failed(e)
    case Success((withBalls, _)) =>
      var started := withBalls.(running := true);
      RunFramesLosesAtMostOneLife(started, frames);
      RunFrames(started, frames)
  }
}

=== FILE: geometry.dfy ===
/** Points, rectangles, velocities and the screen constants of the game. */
module Geometry {

  /** Screen size and margin, as declared in GameLevel and Level. */
  const GuiWidth: int := 800
  const GuiHeight: int := 600
  const ScreenMargin: int := 25
  const PaddleHeight: int := 20

  datatype Point = Point(x: real, y: real)

  /** An axis-aligned rectangle given by its upper-left corner, width and
      height; y grows downwards, so the lower edge is at y + height. */
  datatype Rect = Rect(upperLeft: Point, width: real, height: real)
  {
    function Left(): real { upperLeft.x }
    function Right(): real { upperLeft.x + width }
    function Top(): real { upperLeft.y }
    function Bottom(): real { upperLeft.y + height }
  }

  /** A velocity given by its components. */
  datatype Velocity = Velocity(dx: real, dy: real)

  /** A velocity given as the (angle, speed) pair handed to
      Velocity.fromAngleAndSpeed; the trigonometry is not modelled. */
  datatype Polar = Polar(angle: int, speed: real)

  datatype Color = Rgb(r: int, g: int, b: int)

  const Gray := Rgb(128, 128, 128)
  const White := Rgb(255, 255, 255)

  /** Java's `/` on int: the quotient is truncated toward zero. */
  function JavaDiv(a: int, b: int): (q: int)
    requires b != 0
    ensures b > 0 && a >= 0 ==> q == a / b
    ensures b > 0 ==> q * b <= a + (b - 1) && q * b >= a - (b - 1)
    ensures b > 0 && a < 0 ==> q == -((-a) / b)
  {
    if (a >= 0) == (b > 0) then
      (if a >= 0 then a / b else (-a) / (-b))
    else
      -(if a >= 0 then a / (-b) else (-a) / b)
  }
}

=== FILE: level.dfy ===
/** Level construction helpers shared by every level, and the record a
    level hands to the game (LevelInformation). */
module Levels {
  import opened Wrappers
  import opened Geometry
  import opened Blocks

  /** Level.gameRectangle: the playing area inside the top and side
      margins; its lower edge reaches the bottom of the window. */
  function GameRectangle(): (r: Rect)
    ensures r.Left() == ScreenMargin as real && r.Top() == ScreenMargin as real
    ensures r.Right() == (GuiWidth - ScreenMargin) as real
    ensures r.Bottom() == GuiHeight as real
  {
    Rect(Point(ScreenMargin as real, ScreenMargin as real),
         (GuiWidth - 2 * ScreenMargin) as real, (GuiHeight - ScreenMargin) as real)
  }

  // ---------------------------------------------------------------------
  // Initial ball velocities

  /** Whether `velocities` puts a straight-up ball first: Java's
      `numBalls % 2 != 0`, true exactly for odd counts of either sign. */
  predicate HasMiddleBall(numBalls: int)
  {
    numBalls % 2 != 0
  }

  /** The number of balls spread to the two sides: always even. */
  function SideBalls(numBalls: int): (side: int)
    ensures side % 2 == 0
    ensures side == numBalls || side == numBalls - 1
  {
    if HasMiddleBall(numBalls) then numBalls - 1 else numBalls
  }

  /** k steps of size s, counted out one step at a time. */
  function Times(k: nat, s: int): int
  {
    if k == 0 then 0 else Times(k - 1, s) + s
  }

  lemma {:induction false} TimesIsProduct(k: nat, s: int)
    ensures Times(k, s) == k * s
  {
    if k > 0 {
      TimesIsProduct(k - 1, s);
    }
  }

  /** Reference definition of the i-th side angle: the first half of the
      side balls lean one way by 1, 2, ... steps, the second half the other
      way, where a step is 90 div (number of side balls). */
  function SideAngle(side: int, i: int): int
    requires side > 0 && 0 <= i < side
  {
    var half := side / 2;
    var step := 90 / side;
    if i < half then 180 + Times(i + 1, step) else 180 - Times(i - half + 1, step)
  }

  /** Reference list of initial velocities: one per ball for any
      non-negative ball count, all at the given speed, and an odd count
      starts with a ball aimed straight up. */
  function VelocityList(numBalls: int, speed: real): (vs: seq<Polar>)
    ensures numBalls >= 0 ==> |vs| == numBalls
    ensures forall j :: 0 <= j < |vs| ==> vs[j].speed == speed
    ensures HasMiddleBall(numBalls) && numBalls > 0 ==> vs[0].angle == 180
  {
    var side := SideBalls(numBalls);
    var middle := if HasMiddleBall(numBalls) then [Polar(180, speed)] else [];
    middle + seq(if side > 0 then side else 0, i requires 0 <= i < side => Polar(SideAngle(side, i), speed))
  }

  lemma MulMonotone(a: int, c: int, b: int)
    requires 0 <= a <= c && 0 <= b
    ensures 0 <= a * b <= c * b
  {
  }

  /** Each side angle differs from the previous one by one step, except
      that the second half restarts from 180. */
  lemma {:induction false} SideAngleNext(side: int, i: int)
    requires side > 0 && side % 2 == 0 && 0 <= i < side
    ensures SideAngle(side, i) ==
      (if i == 0 || i == side / 2 then 180 else SideAngle(side, i - 1))
      + (if i >= side / 2 then -(90 / side) else 90 / side)
  {
    var half := side / 2;
    if i < half {
      assert Times(i + 1, 90 / side) == Times(i, 90 / side) + 90 / side;
    } else {
      assert Times(i - half + 1, 90 / side) == Times(i - half, 90 / side) + 90 / side;
    }
  }

  /** Level.velocities, written as the Java loop: the running angle is
      reset to 180 when the second half starts. */
  method Velocities(numBalls: int, speed: real) returns (vs: seq<Polar>)
    ensures vs == VelocityList(numBalls, speed)
    ensures numBalls >= 0 ==> |vs| == numBalls
    ensures forall j :: 0 <= j < |vs| ==> vs[j].speed == speed
  {
    vs := [];
    var side := numBalls;
    if numBalls % 2 != 0 {
      vs := vs + [Polar(180, speed)];
      side := side - 1;
    }
    var off := |vs|;
    var angle := 180;
    var i := 0;
    while i < side
      invariant side == SideBalls(numBalls) && 0 <= i && (i <= side || i == 0)
      invariant off == (if HasMiddleBall(numBalls) then 1 else 0)
      invariant |vs| == off + i
      invariant off == 1 ==> vs[0] == Polar(180, speed)
      invariant forall j :: off <= j < off + i ==> vs[j] == Polar(SideAngle(side, j - off), speed)
      invariant i == 0 ==> angle == 180
      invariant i > 0 ==> angle == SideAngle(side, i - 1)
    {
      SideAngleNext(side, i);
      if i == side / 2 {
        angle := 180;
      }
      if i >= side / 2 {
        angle := angle - 90 / side;
      } else {
        angle := angle + 90 / side;
      }
      vs := vs + [Polar(angle, speed)];
      i := i + 1;
    }
    assert vs == VelocityList(numBalls, speed);
  }

  /** k steps never exceed 45 degrees while k is at most half the side
      balls. */
  lemma {:induction false} StepBound(side: int, k: int)
    requires side > 0 && side % 2 == 0 && 1 <= k <= side / 2
    ensures 0 <= Times(k, 90 / side) <= 45
  {
    var step := 90 / side;
    var half := side / 2;
    TimesIsProduct(k, step);
    DivTimesDivisor(90, side);
    assert step * side <= 90;
    TwiceHalf(step, half, side);
    MulMonotone(k, half, step);
  }

  lemma DivTimesDivisor(a: int, b: int)
    requires a >= 0 && b > 0
    ensures 0 <= (a / b) * b <= a
  {
  }

  lemma TwiceHalf(step: int, half: int, side: int)
    requires side == half + half
    ensures step * side == step * half + step * half
  {
  }

  /** Every initial angle lies within 45 degrees of straight up, and the
      side balls come in mirror pairs about 180. */
  lemma VelocityListSpread(numBalls: int, speed: real)
    ensures forall j :: 0 <= j < |VelocityList(numBalls, speed)| ==>
      135 <= VelocityList(numBalls, speed)[j].angle <= 225
    ensures var side := SideBalls(numBalls);
      var off := if HasMiddleBall(numBalls) then 1 else 0;
      forall k :: off <= k < off + side / 2 ==>
        VelocityList(numBalls, speed)[k].angle
        + VelocityList(numBalls, speed)[k + side / 2].angle == 360
  {
    var vs := VelocityList(numBalls, speed);
    var side := SideBalls(numBalls);
    var off := if HasMiddleBall(numBalls) then 1 else 0;
    forall j | 0 <= j < |vs|
      ensures 135 <= vs[j].angle <= 225
    {
      if j >= off {
        var i := j - off;
        if i < side / 2 {
          StepBound(side, i + 1);
        } else {
          StepBound(side, i - side / 2 + 1);
        }
      }
    }
  }

  // ---------------------------------------------------------------------
  // Lines of blocks

  /** The i-th block of a line: placed one block width to the right of the
      previous one, not yet in the game and with no listeners. */
  function LineBlock(first: Point, width: real, height: real, color: Color, hits: int, i: nat): (b: Block)
    ensures b.rect.Left() == first.x + i as real * width && b.rect.Top() == first.y
    ensures b.rect.Right() == LineBlockLeft(first, width, i + 1)
    ensures b.rect.width == width && b.rect.height == height
    ensures b.color == color && b.hitPoints == hits
    ensures b.listeners == [] && !b.inGame
  {
    Block(Rect(Point(first.x + i as real * width, first.y), width, height), color, hits, [], false)
  }

  function LineBlockLeft(first: Point, width: real, i: nat): real
  {
    first.x + i as real * width
  }

  /** The first overload of Level.createLineOfBlocks: block i takes
      colours[i]; a colour array shorter than the line makes Java throw. */
  method CreateLineOfBlocksColored(number: int, first: Point, colors: seq<Color>,
                                   width: real, height: real, hits: int)
    returns (r: Result<seq<Block>>)
    ensures r.Success? <==> number <= |colors|
    ensures r.Success? ==> |r.value| == (if number > 0 then number else 0)
    ensures r.Success? ==> forall i :: 0 <= i < |r.value| ==>
      r.value[i] == LineBlock(first, width, height, colors[i], hits, i)
    ensures r.Failure? ==> r.error == IndexOutOfBounds
  {
    var blocks: seq<Block> := [];
    var i := 0;
    while i < number
      invariant 0 <= i && (number > 0 ==> i <= number) && (number <= 0 ==> i == 0)
      invariant i <= |colors|
      invariant |blocks| == i
      invariant forall j :: 0 <= j < i ==> blocks[j] == LineBlock(first, width, height, colors[j], hits, j)
    {
      if i >= |colors| {
        return Failure(IndexOutOfBounds);
      }
      var upperLeft := Point(first.x + i as real * width, first.y);
      var block := Block(Rect(upperLeft, width, height), colors[i], 0, [], false);
      block := block.(hitPoints := hits);
      blocks := blocks + [block];
      i := i + 1;
    }
    return Success(blocks);
  }

  /** The second overload of Level.createLineOfBlocks: one colour for the
      whole line. */
  method CreateLineOfBlocks(number: int, first: Point, color: Color,
                            width: real, height: real, hits: int)
    returns (blocks: seq<Block>)
    ensures |blocks| == (if number > 0 then number else 0)
    ensures forall i :: 0 <= i < |blocks| ==>
      blocks[i] == LineBlock(first, width, height, color, hits, i)
    ensures forall i :: 0 <= i < |blocks| - 1 ==>
      blocks[i].rect.Right() == blocks[i + 1].rect.Left()
  {
    blocks := [];
    var i := 0;
    while i < number
      invariant 0 <= i && (number > 0 ==> i <= number) && (number <= 0 ==> i == 0)
      invariant |blocks| == i
      invariant forall j :: 0 <= j < i ==> blocks[j] == LineBlock(first, width, height, color, hits, j)
    {
      var upperLeft := Point(first.x + i as real * width, first.y);
      var block := Block(Rect(upperLeft, width, height), color, 0, [], false);
      block := block.(hitPoints := hits);
      blocks := blocks + [block];
      i := i + 1;
    }
  }

  // ---------------------------------------------------------------------
  // LevelInformation

  /** What a level tells the game. The background sprite is not modelled. */
  datatype LevelInfo = LevelInfo(
    numberOfBalls: int,
    initialBallVelocities: seq<Polar>,
    paddleSpeed: int,
    paddleWidth: int,
    levelName: string,
    blocks: seq<Block>,
    numberOfBlocksToRemove: int)

  /** The two documented LevelInformation contracts: one velocity per ball,
      and no more blocks to remove than there are blocks. */
  predicate WellFormed(info: LevelInfo)
  {
    && |info.initialBallVelocities| == info.numberOfBalls
    && info.numberOfBlocksToRemove <= |info.blocks|
  }

  /** A level built on Level takes its velocities from `velocities`, which
      meets the one-velocity-per-ball contract for every ball count. */
  function LevelFromHelpers(numberOfBalls: int, speed: real, paddleSpeed: int, paddleWidth: int,
                            name: string, blocks: seq<Block>, toRemove: int): (info: LevelInfo)
    requires numberOfBalls >= 0 && toRemove <= |blocks|
    ensures WellFormed(info)
    ensures forall j :: 0 <= j < |info.initialBallVelocities| ==>
      135 <= info.initialBallVelocities[j].angle <= 225
  {
    VelocityListSpread(numberOfBalls, speed);
    LevelInfo(numberOfBalls, VelocityList(numberOfBalls, speed), paddleSpeed, paddleWidth, name, blocks, toRemove)
  }
}

=== FILE: levelsets.dfy ===
/** LevelSetsReader: a level-sets file alternates a "key:name" line and a
    level-file path line. The reader is modelled over the lines of the file;
    opening and parsing the level files themselves is not part of this
    model. */
module LevelSets {
  import opened Wrappers

  const Separator: char := ':'

  // ---------------------------------------------------------------------
  // Java's String.split on a single-character separator

  /** Every piece between separators, empty ones included. */
  function SplitAll(s: string, c: char): (r: seq<string>)
    ensures |r| >= 1
    ensures forall i :: 0 <= i < |r| ==> c !in r[i]
  {
    if |s| == 0 then [""]
    else
      var rest := SplitAll(s[1..], c);
      if s[0] == c then [""] + rest
      else [[s[0]] + rest[0]] + rest[1..]
  }

  /** The pieces joined back with the separator. */
  function Join(ps: seq<string>, c: char): string
    requires |ps| >= 1
  {
    if |ps| == 1 then ps[0] else ps[0] + [c] + Join(ps[1..], c)
  }

  /** Splitting loses nothing: joining the pieces gives the string back. */
  lemma {:induction false} JoinSplitAll(s: string, c: char)
    ensures Join(SplitAll(s, c), c) == s
  {
    if |s| > 0 {
      JoinSplitAll(s[1..], c);
      var rest := SplitAll(s[1..], c);
      if s[0] != c {
        if |rest| == 1 {
          assert [s[0]] + rest[0] == s;
        } else {
          assert Join(SplitAll(s, c), c) == [s[0]] + rest[0] + [c] + Join(rest[1..], c);
          assert s == [s[0]] + s[1..];
        }
      } else {
        assert s == [c] + s[1..];
      }
    }
  }

  /** Splitting a join of separator-free pieces gives the pieces back. */
  lemma {:induction false} SplitAllJoin(ps: seq<string>, c: char)
    requires |ps| >= 1
    requires forall i :: 0 <= i < |ps| ==> c !in ps[i]
    ensures SplitAll(Join(ps, c), c) == ps
    decreases ps, 1
  {
    if |ps| == 1 {
      SplitAllFree(ps[0], c);
    } else {
      SplitAllJoin(ps[1..], c);
      SplitAllPrefix(ps[0], Join(ps[1..], c), c);
    }
  }

  /** A separator-free string is one piece. */
  lemma {:induction false} SplitAllFree(s: string, c: char)
    requires c !in s
    ensures SplitAll(s, c) == [s]
  {
    if |s| > 0 {
      SplitAllFree(s[1..], c);
      assert [s[0]] + s[1..] == s;
    }
  }

  /** A separator-free prefix followed by the separator becomes the first
      piece. */
  lemma {:induction false} SplitAllPrefix(p: string, t: string, c: char)
    requires c !in p
    ensures SplitAll(p + [c] + t, c) == [p] + SplitAll(t, c)
  {
    if |p| == 0 {
      assert p + [c] + t == [c] + t;
      assert ([c] + t)[1..] == t;
    } else {
      SplitAllPrefix(p[1..], t, c);
      assert (p + [c] + t)[1..] == p[1..] + [c] + t;
      assert [p[0]] + p[1..] == p;
    }
  }

  /** The pieces without their trailing empty ones. */
  function DropTrailingEmpty(ps: seq<string>): (r: seq<string>)
    ensures |r| <= |ps| && r == ps[..|r|]
    ensures r == [] || r[|r| - 1] != ""
    ensures forall i :: |r| <= i < |ps| ==> ps[i] == ""
  {
    if ps == [] then []
    else if ps[|ps| - 1] == "" then DropTrailingEmpty(ps[..|ps| - 1])
    else ps
  }

  /** String.split with a one-character separator and no limit: a string
      without the separator is returned whole (even the empty string);
      otherwise trailing empty pieces are dropped, so ":" yields nothing. */
  function JavaSplit(s: string, c: char): (r: seq<string>)
    ensures forall i :: 0 <= i < |r| ==> c !in r[i]
    ensures c !in s ==> r == [s]
    ensures c in s ==> r == [] || r[|r| - 1] != ""
    ensures |r| <= |SplitAll(s, c)| && r == SplitAll(s, c)[..|r|]
    ensures c in s ==> forall i :: |r| <= i < |SplitAll(s, c)| ==> SplitAll(s, c)[i] == ""
  {
    if c !in s then SplitAllFree(s, c); [s]
    else DropTrailingEmpty(SplitAll(s, c))
  }

  /** Every piece after the first is empty. */
  predicate EmptyAfterFirst(pieces: seq<string>)
  {
    forall i :: 1 <= i < |pieces| ==> pieces[i] == ""
  }

  /** A line splits into fewer than two pieces exactly when it has no
      separator or nothing but separators after its first piece. */
  lemma FewerThanTwoPieces(s: string, c: char)
    ensures |JavaSplit(s, c)| < 2 <==> c !in s || EmptyAfterFirst(SplitAll(s, c))
  {
    var all := SplitAll(s, c);
    var r := JavaSplit(s, c);
    if c in s && |r| >= 2 {
      var k := |r| - 1;
      assert all[k] == r[k] && r[k] != "";
    } else if c in s {
      forall i | 1 <= i < |all|
        ensures all[i] == ""
      {
        assert |r| <= i;
      }
    }
  }

  // ---------------------------------------------------------------------
  // Key lines

  datatype Entry = Entry(key: string, name: string)

  /** One key line: piece 0 is the key, piece 1 the name, further pieces
      are ignored; a line with fewer than two pieces makes the array read
      fail. */
  function ParseKeyLine(line: string): (r: Result<Entry>)
    ensures r.Success? <==> |JavaSplit(line, Separator)| >= 2
    ensures r.Failure? ==> r.error == IndexOutOfBounds
    ensures r.Success? ==>
      && Separator !in r.value.key && Separator !in r.value.name
      && r.value.key + [Separator] + r.value.name <= line
  {
    var pieces := JavaSplit(line, Separator);
    if |pieces| < 2 then Failure(IndexOutOfBounds)
    else
      KeyNamePrefix(line, Separator);
      Success(Entry(pieces[0], pieces[1]))
  }

  /** A parsed key line holds piece 0 of the full split as its key and
      piece 1 as its name; any further pieces are ignored. */
  lemma ParseKeyLinePieces(line: string)
    ensures ParseKeyLine(line).Success? ==>
      |SplitAll(line, Separator)| >= 2 &&
      ParseKeyLine(line).value == Entry(SplitAll(line, Separator)[0], SplitAll(line, Separator)[1])
  {
  }

  /** The first two pieces, with the separator between, start the line. */
  lemma KeyNamePrefix(s: string, c: char)
    requires |SplitAll(s, c)| >= 2
    ensures SplitAll(s, c)[0] + [c] + SplitAll(s, c)[1] <= s
  {
    var ps := SplitAll(s, c);
    JoinSplitAll(s, c);
    if |ps| == 2 {
      assert Join(ps, c) == ps[0] + [c] + ps[1];
    } else {
      assert Join(ps, c) == ps[0] + [c] + (ps[1] + [c] + Join(ps[2..], c));
    }
  }

  /** The round trip the file format is written for: "key:name" with a
      separator-free key and a non-empty separator-free name. */
  lemma KeyLineRoundTrip(key: string, name: string)
    requires Separator !in key && Separator !in name && name != ""
    ensures ParseKeyLine(key + [Separator] + name) == Success(Entry(key, name))
  {
    var line := key + [Separator] + name;
    assert Join([key, name], Separator) == line;
    SplitAllJoin([key, name], Separator);
    assert line[|key|] == Separator;
  }

  /** The lines at odd line numbers (first, third, ...): the key lines. */
  function KeyLines(lines: seq<string>): (r: seq<string>)
    ensures |r| == (|lines| + 1) / 2
  {
    if |lines| == 0 then []
    else if |lines| == 1 then [lines[0]]
    else [lines[0]] + KeyLines(lines[2..])
  }

  /** Key line j is line 2j (0-based), that is, line number 2j + 1. */
  lemma {:induction false} KeyLinesAt(lines: seq<string>)
    ensures forall j :: 0 <= j < |KeyLines(lines)| ==> KeyLines(lines)[j] == lines[2 * j]
    decreases |lines|
  {
    if |lines| >= 2 {
      KeyLinesAt(lines[2..]);
    }
  }

  /** Reference definition of the map: the key lines applied in order to
      an initial map, stopping at the first line that does not parse. */
  function Entries(acc: map<string, string>, keyLines: seq<string>): Result<map<string, string>>
    decreases |keyLines|
  {
    if keyLines == [] then Success(acc)
    else match ParseKeyLine(keyLines[0])
      case Failure(e) => Failure(e)
      case Success(en) => Entries(acc[en.key := en.name], keyLines[1..])
  }

  /** getLevelSetMap, as the Java loop over numbered lines. */
  method GetLevelSetMap(lines: seq<string>) returns (r: Result<map<string, string>>)
    ensures r == Entries(map[], KeyLines(lines))
    ensures lines == [] ==> r == Success(map[])
  {
    var m: map<string, string> := map[];
    var lineNumber := 0;
    ghost var total := Entries(map[], KeyLines(lines));
    while lineNumber < |lines|
      invariant 0 <= lineNumber <= |lines|
      invariant total == Entries(m, KeyLines(lines[NextKeyLine(lineNumber, |lines|)..]))
    {
      var line := lines[lineNumber];
      NextKeyLineAt(lineNumber, |lines|);
      lineNumber := lineNumber + 1;
      if lineNumber % 2 == 1 {
        KeyLineRead(lines, lineNumber - 1, m);
        var parsed := ParseKeyLine(line);
        if parsed.Failure? {
          return Failure(parsed.error);
        }
        m := m[parsed.value.key := parsed.value.name];
      }
    }
    assert lines[NextKeyLine(lineNumber, |lines|)..] == [];
    return Success(m);
  }

  lemma EntriesCons(acc: map<string, string>, line: string, later: seq<string>)
    ensures Entries(acc, [line] + later) ==
      match ParseKeyLine(line)
      case Failure(e) => Failure(e)
      case Success(en) => Entries(acc[en.key := en.name], later)
  {
    assert ([line] + later)[1..] == later;
  }

  /** Reading the key line at index n: the parse either fails there or goes
      on from the next key line with the entry added. */
  lemma KeyLineRead(lines: seq<string>, n: nat, m: map<string, string>)
    requires n < |lines| && n % 2 == 0
    ensures Entries(m, KeyLines(lines[n..])) ==
      match ParseKeyLine(lines[n])
      case Failure(e) => Failure(e)
      case Success(en) => Entries(m[en.key := en.name], KeyLines(lines[NextKeyLine(n + 1, |lines|)..]))
  {
    KeyLinesStep(lines, n);
    EntriesCons(m, lines[n], KeyLines(lines[NextKeyLine(n + 1, |lines|)..]));
  }

  lemma KeyLinesStep(lines: seq<string>, n: nat)
    requires n < |lines| && n % 2 == 0
    ensures KeyLines(lines[n..]) == [lines[n]] + KeyLines(lines[NextKeyLine(n + 1, |lines|)..])
  {
    var rest := lines[n..];
    if |rest| >= 2 {
      assert rest[2..] == lines[n + 2..];
    }
  }

  /** The index of the next key line once `read` lines have been read. */
  function NextKeyLine(read: nat, count: nat): (i: nat)
    requires read <= count
    ensures i <= count
  {
    if read % 2 == 0 then read else if read + 1 <= count then read + 1 else count
  }

  /** Reading line `read` (0-based) makes the line number read + 1: an odd
      number means a key line was read, an even one that the next key line
      is the one after it. */
  lemma NextKeyLineAt(read: nat, count: nat)
    requires read < count
    ensures (read + 1) % 2 == 1 ==> read % 2 == 0 && NextKeyLine(read, count) == read
    ensures (read + 1) % 2 == 0 ==> NextKeyLine(read, count) == read + 1 == NextKeyLine(read + 1, count)
  {
  }

  /** getLevels without the resource loading: the level-file paths, one per
      even-numbered line, in file order. */
  method GetLevelPaths(lines: seq<string>) returns (paths: seq<string>)
    ensures |paths| == |lines| / 2
    ensures forall j :: 0 <= j < |paths| ==> paths[j] == lines[2 * j + 1]
  {
    paths := [];
    var lineNumber := 0;
    while lineNumber < |lines|
      invariant 0 <= lineNumber <= |lines|
      invariant |paths| == lineNumber / 2
      invariant forall j :: 0 <= j < |paths| ==> paths[j] == lines[2 * j + 1]
    {
      var line := lines[lineNumber];
      lineNumber := lineNumber + 1;
      if lineNumber % 2 == 0 {
        paths := paths + [line];
      }
    }
  }

  /** Path lines never influence the map: two files with the same key lines
      give the same result. */
  lemma {:induction false} PathLinesIgnored(a: seq<string>, b: seq<string>)
    requires (|a| + 1) / 2 == (|b| + 1) / 2
    requires forall j :: 0 <= 2 * j < |a| && 2 * j < |b| ==> a[2 * j] == b[2 * j]
    ensures Entries(map[], KeyLines(a)) == Entries(map[], KeyLines(b))
  {
    KeyLinesAt(a);
    KeyLinesAt(b);
    assert KeyLines(a) == KeyLines(b);
  }

  /** A successful parse maps each key to the name on the last key line
      that carries it. */
  lemma {:induction false} LastLineWins(acc: map<string, string>, keyLines: seq<string>, j: nat)
    requires Entries(acc, keyLines).Success?
    requires j < |keyLines|
    requires ParseKeyLine(keyLines[j]).Success?
    requires forall i :: j < i < |keyLines| && ParseKeyLine(keyLines[i]).Success? ==>
      ParseKeyLine(keyLines[i]).value.key != ParseKeyLine(keyLines[j]).value.key
    ensures var en := ParseKeyLine(keyLines[j]).value;
      en.key in Entries(acc, keyLines).value && Entries(acc, keyLines).value[en.key] == en.name
    decreases |keyLines|
  {
    var en0 := ParseKeyLine(keyLines[0]).value;
    if j == 0 {
      KeptAfterwards(acc[en0.key := en0.name], keyLines[1..], en0.key);
    } else {
      forall i | j - 1 < i < |keyLines[1..]| && ParseKeyLine(keyLines[1..][i]).Success?
        ensures ParseKeyLine(keyLines[1..][i]).value.key != ParseKeyLine(keyLines[1..][j - 1]).value.key
      {
        assert keyLines[1..][i] == keyLines[i + 1];
      }
      LastLineWins(acc[en0.key := en0.name], keyLines[1..], j - 1);
    }
  }

  /** A key that no later line mentions keeps its value. */
  lemma {:induction false} KeptAfterwards(acc: map<string, string>, keyLines: seq<string>, k: string)
    requires k in acc
    requires Entries(acc, keyLines).Success?
    requires forall i :: 0 <= i < |keyLines| && ParseKeyLine(keyLines[i]).Success? ==>
      ParseKeyLine(keyLines[i]).value.key != k
    ensures k in Entries(acc, keyLines).value && Entries(acc, keyLines).value[k] == acc[k]
    decreases |keyLines|
  {
    if keyLines != [] {
      var en := ParseKeyLine(keyLines[0]).value;
      forall i | 0 <= i < |keyLines[1..]| && ParseKeyLine(keyLines[1..][i]).Success?
        ensures ParseKeyLine(keyLines[1..][i]).value.key != k
      {
        assert keyLines[1..][i] == keyLines[i + 1];
      }
      KeptAfterwards(acc[en.key := en.name], keyLines[1..], k);
    }
  }

  /** The parse succeeds exactly when every key line splits into at least
      two pieces. */
  lemma {:induction false} EntriesSucceedIff(acc: map<string, string>, keyLines: seq<string>)
    ensures Entries(acc, keyLines).Success? <==>
      forall i :: 0 <= i < |keyLines| ==> ParseKeyLine(keyLines[i]).Success?
    decreases |keyLines|
  {
    if keyLines != [] {
      var p := ParseKeyLine(keyLines[0]);
      if p.Success? {
        EntriesSucceedIff(acc[p.value.key := p.value.name], keyLines[1..]);
        assert forall i :: 1 <= i < |keyLines| ==> keyLines[i] == keyLines[1..][i - 1];
      }
    }
  }
}

=== FILE: listeners.dfy ===
/** The two hit listeners of the core, BlockRemover and
    ScoreTrackingListener, as functions from (block, counters) to
    (block, counters). */
module Listeners {
  import opened Counters
  import opened Blocks

  /** What a hit event leaves behind: the block as the listener left it and
      the counters. */
  datatype HitResult = HitResult(block: Block, counters: Counters)

  /** BlockRemover.hitEvent: a block at one hit point leaves the game, the
      remover unregisters itself and its counter drops by one; any other
      hit-point value changes nothing. */
  function BlockRemoverHit(self: Listener, b: Block, cs: Counters): (r: HitResult)
    requires self.BlockRemover?
    ensures b.hitPoints == 1 ==>
      && !r.block.inGame
      && self !in r.block.listeners
      && Get(r.counters, self.counter) == Get(cs, self.counter) - 1
    ensures b.hitPoints != 1 ==> r.block == b && r.counters == cs
    ensures b.hitPoints == 1 ==> r.block == b.(inGame := false, listeners := Without(b.listeners, self))
    ensures SameExcept(r.counters, cs, self.counter)
    ensures r.block.rect == b.rect && r.block.color == b.color
    ensures r.block.hitPoints == b.hitPoints
    ensures forall l :: l != self ==> (l in r.block.listeners <==> l in b.listeners)
  {
    if b.hitPoints == 1 then
      var removed := RemoveFromGame(b);
      var unregistered := RemoveHitListener(removed, self);
      HitResult(unregistered, Decrease(cs, self.counter, 1))
    else
      HitResult(b, cs)
  }

  /** ScoreTrackingListener.hitEvent: every hit is worth 5 points; a hit on
      a block at one hit point is worth 10 more, and the listener then
      unregisters itself. The block is otherwise untouched. */
  function ScoreTrackerHit(self: Listener, b: Block, cs: Counters): (r: HitResult)
    requires self.ScoreTracker?
    ensures var gain := Get(r.counters, self.counter) - Get(cs, self.counter);
      && (gain == 5 || gain == 15)
      && (gain == 15 <==> b.hitPoints == 1)
    ensures b.hitPoints == 1 ==> self !in r.block.listeners
    ensures b.hitPoints != 1 ==> r.block == b
    ensures b.hitPoints == 1 ==> r.block == b.(listeners := Without(b.listeners, self))
    ensures r.block.(listeners := b.listeners) == b
    ensures forall l :: l != self ==> (l in r.block.listeners <==> l in b.listeners)
    ensures SameExcept(r.counters, cs, self.counter)
  {
    var (b', cs') :=
      if b.hitPoints == 1 then
        (RemoveHitListener(b, self), Increase(cs, self.counter, 10))
      else (b, cs);
    HitResult(b', Increase(cs', self.counter, 5))
  }

  /** A listener whose hitEvent is part of this model. */
  predicate Modelled(l: Listener)
  {
    l.BlockRemover? || l.ScoreTracker?
  }

  function Dispatch(l: Listener, b: Block, cs: Counters): HitResult
    requires Modelled(l)
  {
    if l.BlockRemover? then BlockRemoverHit(l, b, cs) else ScoreTrackerHit(l, b, cs)
  }

  /** A sequence of hit events on one block as seen by one listener: for
      each event the block's hit-point count at notification time is given
      (Block.hit is not part of this model), and the listener is notified
      only while it is still registered on the block. */
  function Deliver(l: Listener, b: Block, cs: Counters, hits: seq<int>): HitResult
    requires Modelled(l)
    decreases |hits|
  {
    if hits == [] then HitResult(b, cs)
    else
      var struck := b.(hitPoints := hits[0]);
      var after := if l in struck.listeners then Dispatch(l, struck, cs) else HitResult(struck, cs);
      Deliver(l, after.block, after.counters, hits[1..])
  }

  /** The number of events in `hits` that reach `l`. */
  function Delivered(l: Listener, b: Block, hits: seq<int>): (n: nat)
    requires Modelled(l)
    ensures n <= |hits|
    decreases |hits|
  {
    if hits == [] then 0
    else
      var struck := b.(hitPoints := hits[0]);
      if l in struck.listeners then
        1 + Delivered(l, Dispatch(l, struck, Counters(0, 0, 0, 0)).block, hits[1..])
      else Delivered(l, struck, hits[1..])
  }

  /** A listener that is no longer registered is never called again, so
      neither the counters nor the listener list change any more. */
  lemma {:induction false} UnregisteredIsInert(l: Listener, b: Block, cs: Counters, hits: seq<int>)
    requires Modelled(l)
    requires l !in b.listeners
    ensures Deliver(l, b, cs, hits).counters == cs
    ensures l !in Deliver(l, b, cs, hits).block.listeners
    decreases |hits|
  {
    if hits != [] {
      UnregisteredIsInert(l, b.(hitPoints := hits[0]), cs, hits[1..]);
    }
  }

  /** Whatever the sequence of hits, a BlockRemover lowers its counter by
      at most one: after firing it is gone from the block's listeners. The
      other counters are never touched. */
  lemma {:induction false} RemoverFiresAtMostOnce(l: Listener, b: Block, cs: Counters, hits: seq<int>)
    requires l.BlockRemover?
    ensures var r := Deliver(l, b, cs, hits);
      && Get(cs, l.counter) - 1 <= Get(r.counters, l.counter) <= Get(cs, l.counter)
      && SameExcept(r.counters, cs, l.counter)
    ensures l in b.listeners && 1 in hits ==> Get(Deliver(l, b, cs, hits).counters, l.counter) == Get(cs, l.counter) - 1
    decreases |hits|
  {
    if hits != [] {
      var struck := b.(hitPoints := hits[0]);
      if l in struck.listeners {
        var after := Dispatch(l, struck, cs);
        if hits[0] == 1 {
          UnregisteredIsInert(l, after.block, after.counters, hits[1..]);
        } else {
          assert after == HitResult(struck, cs);
          RemoverFiresAtMostOnce(l, struck, cs, hits[1..]);
          assert 1 in hits ==> 1 in hits[1..];
        }
      } else {
        UnregisteredIsInert(l, struck, cs, hits[1..]);
        RemoverFiresAtMostOnce(l, struck, cs, hits[1..]);
      }
    }
  }

  /** A ScoreTrackingListener pays 5 points per event it receives and the
      10-point destruction bonus at most once per block. */
  lemma {:induction false} ScoreBonusAtMostOnce(l: Listener, b: Block, cs: Counters, hits: seq<int>)
    requires l.ScoreTracker?
    ensures var gain := Get(Deliver(l, b, cs, hits).counters, l.counter) - Get(cs, l.counter);
      var n := Delivered(l, b, hits);
      && (gain == 5 * n || gain == 5 * n + 10)
      && SameExcept(Deliver(l, b, cs, hits).counters, cs, l.counter)
    decreases |hits|
  {
    if hits != [] {
      var struck := b.(hitPoints := hits[0]);
      if l in struck.listeners {
        var after := Dispatch(l, struck, cs);
        assert Dispatch(l, struck, Counters(0, 0, 0, 0)).block == after.block;
        if hits[0] == 1 {
          UnregisteredIsInert(l, after.block, after.counters, hits[1..]);
          UnregisteredNotDelivered(l, after.block, hits[1..]);
        } else {
          ScoreBonusAtMostOnce(l, after.block, after.counters, hits[1..]);
        }
      } else {
        UnregisteredIsInert(l, struck, cs, hits[1..]);
        UnregisteredNotDelivered(l, struck, hits[1..]);
      }
    }
  }

  /** No event reaches a listener that is not registered. */
  lemma {:induction false} UnregisteredNotDelivered(l: Listener, b: Block, hits: seq<int>)
    requires Modelled(l)
    requires l !in b.listeners
    ensures Delivered(l, b, hits) == 0
    decreases |hits|
  {
    if hits != [] {
      UnregisteredNotDelivered(l, b.(hitPoints := hits[0]), hits[1..]);
    }
  }
}

=== FILE: paddle.dfy ===
/** The player's paddle: five-band bounce rule, clamped sideways moves and
    the one-time speed rescale of its first frame. */
module Paddles {
  import opened Geometry

  datatype Paddle = Paddle(rect: Rect, speed: int, firstFrame: bool)

  /** What Paddle.hit returns: either a velocity built from the incoming
      components, or the (angle, speed) pair passed to
      Velocity.fromAngleAndSpeed. */
  datatype Bounce = Flipped(v: Velocity) | Aimed(p: Polar)

  /** A new paddle moves 5 pixels per step until its first frame. */
  function NewPaddle(rect: Rect): (p: Paddle)
    ensures p.rect == rect && p.speed == 5 && p.firstFrame
  {
    Paddle(rect, 5, true)
  }

  function Abs(x: real): real { if x < 0.0 then -x else x }

  /** The band cut points, left to right. */
  const Cuts: seq<real> := [0.2, 0.4, 0.5, 0.8]

  /** Reference definition of a band: one more than the number of cut
      points strictly below the dose, so each band includes its right cut. */
  function CutsBelow(dose: real, k: nat): (n: nat)
    requires k <= |Cuts|
    ensures n <= k
  {
    if k == 0 then 0
    else CutsBelow(dose, k - 1) + (if Cuts[k - 1] < dose then 1 else 0)
  }

  /** The band chosen by the if-chain of getRegion for a given dose. */
  function RegionOfDose(dose: real): (region: int)
    ensures 1 <= region <= 5
  {
    if dose <= 0.2 then 1
    else if dose <= 0.4 then 2
    else if dose <= 0.5 then 3
    else if dose <= 0.8 then 4
    else 5
  }

  /** Paddle.getRegion. The dose is the contact point's horizontal distance
      from the left edge over the paddle's length. With a zero-length
      paddle Java's double division yields NaN or infinity, every `<=`
      test fails, and the last band is chosen. */
  function Region(rect: Rect, contact: Point): (region: int)
    ensures 1 <= region <= 5
    ensures rect.width != 0.0 ==>
      region == RegionOfDose(Abs(rect.Left() - contact.x) / Abs(rect.Left() - rect.Right()))
    ensures rect.width == 0.0 ==> region == 5
  {
    var lengthPaddle := Abs(rect.Left() - rect.Right());
    var lengthFromStart := Abs(rect.Left() - contact.x);
    if lengthPaddle == 0.0 then 5
    else RegionOfDose(lengthFromStart / lengthPaddle)
  }

  /** The if-chain agrees with the reference definition: band k holds the
      doses above the (k-1)-th cut and up to and including the k-th. */
  lemma RegionCountsCuts(dose: real)
    ensures RegionOfDose(dose) == 1 + CutsBelow(dose, 4)
  {
    assert CutsBelow(dose, 1) == (if 0.2 < dose then 1 else 0);
    assert CutsBelow(dose, 2) == CutsBelow(dose, 1) + (if 0.4 < dose then 1 else 0);
    assert CutsBelow(dose, 3) == CutsBelow(dose, 2) + (if 0.5 < dose then 1 else 0);
  }

  /** A dose further right never selects a band further left. */
  lemma RegionMonotone(d1: real, d2: real)
    requires d1 <= d2
    ensures RegionOfDose(d1) <= RegionOfDose(d2)
  {
    RegionCountsCuts(d1);
    RegionCountsCuts(d2);
    CutsBelowMonotone(d1, d2, 4);
  }

  lemma {:induction false} CutsBelowMonotone(d1: real, d2: real, k: nat)
    requires d1 <= d2 && k <= |Cuts|
    ensures CutsBelow(d1, k) <= CutsBelow(d2, k)
  {
    if k > 0 {
      CutsBelowMonotone(d1, d2, k - 1);
    }
  }

  /** The angle argument Paddle.hit passes for each band. */
  function BandAngle(region: int): (angle: int)
    requires 1 <= region <= 5
  {
    if region == 5 then 120
    else if region == 4 then 150
    else if region == 3 then 180
    else if region == 2 then 210
    else -120
  }

  /** Paddle.hit. A contact on the lower edge flips the vertical component
      and keeps the horizontal one, wherever along the edge it lies;
      otherwise the band fixes the angle and the incoming speed is kept.
      `speed` is the magnitude of `v` (Velocity.getSpeed), which takes a
      square root and so is supplied by the caller. */
  function Hit(rect: Rect, contact: Point, v: Velocity, speed: real): (r: Bounce)
    ensures contact.y == rect.Bottom() ==> r == Flipped(Velocity(v.dx, -v.dy))
    ensures contact.y != rect.Bottom() ==> r.Aimed? && r.p.speed == speed
    ensures contact.y != rect.Bottom() ==>
      var region := Region(rect, contact);
      && (region == 5 ==> r.p.angle == 120)
      && (region == 4 ==> r.p.angle == 150)
      && (region == 3 ==> r.p.angle == 180)
      && (region == 2 ==> r.p.angle == 210)
      && (region == 1 ==> r.p.angle == -120)
  {
    if contact.y == rect.Bottom() then Flipped(Velocity(v.dx, -v.dy))
    else Aimed(Polar(BandAngle(Region(rect, contact)), speed))
  }

  /** The outer bands mirror each other about 180 degrees, as do the inner
      ones, and the middle band aims at exactly 180 degrees. */
  lemma BandAnglesMirror(region: int)
    requires 1 <= region <= 5
    ensures (BandAngle(region) + BandAngle(6 - region)) % 360 == 0
    ensures BandAngle(3) == 180
  {
  }

  /** Paddle.moveLeft: step left by `speed`, stopping at the left margin. */
  function MoveLeft(p: Paddle): (r: Paddle)
    ensures r.rect.Left() >= ScreenMargin as real
    ensures p.rect.Left() - p.speed as real > ScreenMargin as real ==>
      r.rect.Left() == p.rect.Left() - p.speed as real
    ensures p.rect.Left() - p.speed as real <= ScreenMargin as real ==>
      r.rect.Left() == ScreenMargin as real
    ensures r.rect.upperLeft.y == p.rect.upperLeft.y
    ensures r.rect.width == p.rect.width && r.rect.height == p.rect.height
    ensures r.speed == p.speed && r.firstFrame == p.firstFrame
  {
    var newX := p.rect.upperLeft.x - p.speed as real;
    var x := if newX <= ScreenMargin as real then ScreenMargin as real else newX;
    p.(rect := Rect(Point(x, p.rect.upperLeft.y), p.rect.width, p.rect.height))
  }

  /** Paddle.moveRight: step right by `speed`, stopping so that the right
      edge rests on the right margin. */
  function MoveRight(p: Paddle): (r: Paddle)
    ensures r.rect.Right() <= (GuiWidth - ScreenMargin) as real
    ensures p.rect.Right() + p.speed as real < (GuiWidth - ScreenMargin) as real ==>
      r.rect.Left() == p.rect.Left() + p.speed as real
    ensures p.rect.Right() + p.speed as real >= (GuiWidth - ScreenMargin) as real ==>
      r.rect.Right() == (GuiWidth - ScreenMargin) as real
    ensures r.rect.upperLeft.y == p.rect.upperLeft.y
    ensures r.rect.width == p.rect.width && r.rect.height == p.rect.height
    ensures r.speed == p.speed && r.firstFrame == p.firstFrame
  {
    var newX := p.rect.upperLeft.x + p.speed as real;
    var newRightX := p.rect.Right() + p.speed as real;
    var x := if newRightX >= (GuiWidth - ScreenMargin) as real
      then (GuiWidth - ScreenMargin) as real - p.rect.width
      else newX;
    p.(rect := Rect(Point(x, p.rect.upperLeft.y), p.rect.width, p.rect.height))
  }

  /** The paddle lies between the two side margins. */
  predicate Inside(p: Paddle)
  {
    ScreenMargin as real <= p.rect.Left() && p.rect.Right() <= (GuiWidth - ScreenMargin) as real
  }

  /** With a non-negative speed, both moves keep a paddle between the
      margins. */
  lemma MovesKeepInside(p: Paddle)
    requires Inside(p) && p.speed >= 0
    ensures Inside(MoveLeft(p))
    ensures Inside(MoveRight(p))
  {
  }

  /** A paddle resting on a margin does not move further into it. */
  lemma ClampIsStable(p: Paddle)
    requires p.speed >= 0
    ensures MoveLeft(MoveLeft(p)).rect.Left() == ScreenMargin as real ||
            MoveLeft(MoveLeft(p)).rect.Left() == MoveLeft(p).rect.Left() - p.speed as real
    ensures MoveLeft(p).rect.Left() == ScreenMargin as real ==> MoveLeft(MoveLeft(p)) == MoveLeft(p)
    ensures MoveRight(p).rect.Right() == (GuiWidth - ScreenMargin) as real ==>
      MoveRight(MoveRight(p)) == MoveRight(p)
  {
  }

  /** Paddle.timePassed. On the first frame only, the speed is replaced by
      its rescaled value (the truncated `dt * speed`, supplied as
      `rescaled`); then a held left key moves left, and after that a held
      right key moves right. */
  function TimePassed(p: Paddle, rescaled: int, left: bool, right: bool): (r: Paddle)
    ensures !r.firstFrame
    ensures r.speed == (if p.firstFrame then rescaled else p.speed)
    ensures !left && !right ==> r.rect == p.rect
    ensures r.rect.upperLeft.y == p.rect.upperLeft.y
    ensures r.rect.width == p.rect.width && r.rect.height == p.rect.height
    ensures var sc := if p.firstFrame then p.(speed := rescaled, firstFrame := false) else p;
      && (left && !right ==> r == MoveLeft(sc))
      && (right && !left ==> r == MoveRight(sc))
      && (left && right ==> r == MoveRight(MoveLeft(sc)))
  {
    var scaled := if p.firstFrame then p.(speed := rescaled, firstFrame := false) else p;
    var afterLeft := if left then MoveLeft(scaled) else scaled;
    if right then MoveRight(afterLeft) else afterLeft
  }

  /** The speed is rescaled once: later frames ignore the rescale input. */
  lemma RescaleOnlyOnce(p: Paddle, s1: int, s2: int, l1: bool, r1: bool, l2: bool, r2: bool)
    ensures TimePassed(TimePassed(p, s1, l1, r1), s2, l2, r2).speed == TimePassed(p, s1, l1, r1).speed
  {
  }

  /** With both keys held and room on both sides, the left step is taken
      first and the right step cancels it. */
  lemma BothKeysCancel(p: Paddle, rescaled: int)
    requires !p.firstFrame && p.speed >= 0
    requires p.rect.Left() - p.speed as real > ScreenMargin as real
    requires p.rect.Right() < (GuiWidth - ScreenMargin) as real
    ensures TimePassed(p, rescaled, true, true) == p
    ensures TimePassed(p, rescaled, true, true) == MoveRight(MoveLeft(p))
  {
  }
}

=== FILE: wrappers.dfy ===
/** Failure-carrying results used wherever the Java code would throw. */
module Wrappers {

  datatype Option<+T> = None | Some(value: T)

  /** The run-time errors the modelled Java code can raise: a list or
      array read past its end. A lookup of a missing key is an Option. */
  datatype Error = IndexOutOfBounds

  datatype Result<+R> = Success(value: R) | Failure(error: Error)
}
